=== FILE: README.md ===
# Taxi-to-airport booking flow in Dafny

A functional model of the booking flow of the taxi-to-airport React front end,
with its rendering stripped away. It covers five parts:

- the vehicle catalog and its capacity filter (`cars.js`, `getAvailableCars`);
- the fare arithmetic of the vehicle page:
  - the charged total that `calculatePrice` stores as `toFixed(2)` text;
  - the promotional figures the car tiles display;
- the passenger form's `validate`, including the email pattern
  `^[^\s@]+@[^\s@]+\.[^\s@]+$`;
- the card-field formatters of the payment page's `handleChange`;
- the step sequencer: the stored `bookingData` record as an
  `Option<Booking>` threaded through `/`, `/booking`, `/booking/cars`,
  `/booking/info` and `/booking/payment`. The sequencer covers each page's
  entry guard, how each submit extends the record, and how paying clears it.

Prices are exact reals:

- `Math.round` is round-half-up (`floor(x + 0.5)`);
- `toFixed(2)` writes the nearest hundredth, a tie going away from zero;
- `parseFloat` of such a text reads the written value back.

Strings are `seq<char>`. JavaScript's `\s`, `trim` and `parseInt` share one
whitespace set, defined once in `Text.IsWhitespace`.

Modules:

| module | file | models |
|---|---|---|
| `Optional` | optional.dfy | `Option` and the `||` fallback |
| `Text` | text.dfy | `\s`, `\d`, `trim`, `replace(/\s/g, '')`, `replace(/\D/g, '')`, `slice(0, n)` |
| `Decimal` | decimal.dfy | numerals of select options, `parseInt` without a radix |
| `Money` | money.dfy | `Math.round`, `toFixed(2)`, `parseFloat` of a `toFixed(2)` text |
| `Cars` | cars.dfy | the seven-car catalog and `getAvailableCars` |
| `Home` | home.dfy | the trip record, its `handleChange`, the rendered controls, the `required` gate |
| `CarSelection` | car_selection.dfy | `calculatePrice`, the promotional figures, the offered cars, the Return button |
| `UserInfo` | user_info.dfy | the passenger form, `handleChange`, `validate` and the email pattern |
| `Payment` | payment.dfy | the card formatters, the card `handleChange`, the `required` gate, the distance charge |
| `Flow` | flow.dfy | stored record, routes, guards, one function per event, and the invariant every reachable state keeps |

The repository has two copies of `CarSelection.jsx`, in `src/pages/` and
`frontend/src/pages/`. They differ only in markup and in how
`handleContinue` builds the record it stores, so one model covers both. The
rows below cite `src/pages/CarSelection.jsx`. The `frontend/` copy has the
same code at `frontend/src/pages/CarSelection.jsx:12-56` (guard, price,
continue), `96-107` (promotional figures) and `164-165` (Return button).

`src/pages/CarSelection.jsx` imports `src/data/cars.js`, which is not part of
this model. The catalog modelled is the one in `frontend/src/data/cars.js`.

## Model

| member | source | states |
|---|---|---|
| Text.TrimEmptyIffAllWhitespace | src/pages/UserInfo.jsx:60 | `!value.trim()` holds exactly when every character of the value is whitespace |
| Text.Trim | src/pages/UserInfo.jsx:60 | the result is no longer than the text and neither starts nor ends with whitespace |
| Text.TrimDropsEdgeWhitespace | src/pages/Payment.jsx:38 | `trim` keeps a contiguous piece of the text and drops only whitespace before and after it |
| Text.RemoveWhitespace | src/pages/Payment.jsx:38 | the result holds no whitespace, is no longer than the input, and leaves a text without whitespace unchanged |
| Text.RemoveWhitespaceOfTrim | src/pages/Payment.jsx:38 | trimming removes only whitespace: it commutes away under whitespace removal |
| Text.KeepDigits | src/pages/Payment.jsx:44 | the result holds only digits, is no longer than the input, and leaves a text of digits unchanged; `Text.KeepDigitsOfChar` and `Text.KeepDigitsOfConcat` fix its value |
| Text.KeepDigitsOfChar | src/pages/Payment.jsx:44 | one character survives `replace(/\D/g, '')` exactly when it is a digit; with distribution over concatenation, every digit is kept in order and every other character dropped |
| Text.KeepDigitsOfConcat | src/pages/Payment.jsx:53 | the digit filter distributes over concatenation |
| Decimal.ParseInt | src/pages/CarSelection.jsx:22-25 | `parseInt` yields a number exactly when the text, after leading whitespace, starts with a digit or a sign and a digit; otherwise it is `NaN` |
| Decimal.ParseIntOfNatToString | src/pages/Home.jsx:160-161 | `parseInt` reads every rendered option value back as the number it was written from |
| Money.RoundHalfUp | src/pages/CarSelection.jsx:98 | `Math.round(x)` is the integer within one half of `x`, a tie going up |
| Money.Hundredths | src/pages/CarSelection.jsx:35 | `toFixed(2)` stands for a whole number of hundredths within 0.005 of the value, non-negative for a non-negative value; a tie goes away from zero (up for a non-negative value, down for a negative one), so the value is fixed for every input |
| Money.ToFixed2 | src/pages/CarSelection.jsx:35 | the text is at least four characters with a point before the last two, and starts with a minus sign exactly for a negative value; `Money.ParseToFixed2` fixes what it reads back as |
| Money.ParseFixed2 | src/pages/Payment.jsx:298 | a number is read only from text with a point before its last two characters and two digits after it, and a text without a leading minus reads as a non-negative number |
| Money.ParseToFixed2 | src/pages/Payment.jsx:298 | `parseFloat` of the `toFixed(2)` text of `x` is `x` rounded to hundredths: the text loses nothing else |
| Money.ReadBackExact | src/pages/Payment.jsx:298 | an amount already in whole hundredths survives `toFixed(2)` followed by `parseFloat` exactly |
| Money.HundredthsMonotone | src/pages/CarSelection.jsx:38 | rounding to hundredths never reverses the order of two amounts |
| Cars.CatalogWellFormed | frontend/src/data/cars.js:1-144 | seven cars, ids 1 to 7 in order and so distinct, every base price and rate per mile positive |
| Cars.GetAvailableCars | frontend/src/data/cars.js:146-151 | a car is offered if and only if it is in the catalog and seats at least the requested passengers and holds at least the requested luggage |
| Cars.Filter | frontend/src/data/cars.js:147-150 | `filter` keeps exactly the listed cars that fit both counts and never lengthens the list; `Cars.FilterIsSubsequence` adds that order is kept |
| Cars.AvailableCarsAreSubsequence | frontend/src/data/cars.js:147-150 | the offer is a subsequence of the catalog: order kept, nothing repeated or invented |
| Cars.FilterIsSubsequence | frontend/src/data/cars.js:147-150 | `filter` over any list yields a subsequence of that list |
| Cars.FilterMonotone | frontend/src/data/cars.js:149 | raising either count yields a subsequence of the previous result, over any list |
| Cars.AvailableCarsMonotone | frontend/src/data/cars.js:149 | asking for more seats or more luggage room only removes cars from the offer |
| Cars.AvailableCarsExtremes | frontend/src/data/cars.js:8-11 | up to 3 passengers with up to 2 bags get all seven cars; more than 10 of either get none |
| Cars.SevenPassengersNineBags | frontend/src/data/cars.js:130-133 | example: seven passengers with nine bags are offered only the Luxury Van |
| CarSelection.ChargedTotal | src/pages/CarSelection.jsx:29-39 | the charged amount is the one-way fare `base + 25 * rate`, or 1.9 times it on a round trip |
| CarSelection.TotalPriceText | src/pages/CarSelection.jsx:29-39 | `calculatePrice`: the charged total written by `toFixed(2)`; `CarSelection.TotalPriceTextReadsBack` states what the text holds |
| CarSelection.TotalPriceTextReadsBack | src/pages/CarSelection.jsx:29-39 | the stored price text reads back as the charged total rounded to pence |
| CarSelection.RoundTripCostsMore | src/pages/CarSelection.jsx:33-36 | corollary: for non-negative prices the round-trip total lies between the one-way fare and 1.9 times it |
| CarSelection.ChargedTotalMonotone | src/pages/CarSelection.jsx:31 | a dearer base price or rate never lowers the total, exact or rounded to pence |
| CarSelection.CatalogTotalsExact | src/pages/CarSelection.jsx:35-38 | every catalog car's total is a whole number of pence for either kind of trip, so its stored text reads back exactly |
| CarSelection.EconomySedanTotals | src/pages/CarSelection.jsx:29-38 | example: the Economy Sedan is stored as "77.50" one way and "147.25" for a round trip |
| CarSelection.Promo | src/pages/CarSelection.jsx:94-105 | the struck-through one-way price is the fare; the promo one-way price is the fare less 3, or 0 for a fare below 3; the struck-through return price, shown either way, is twice the fare rounded half up; the promo return price exists exactly on a round trip and is 1.95 times the fare rounded half up; the badge is their difference, zero one way and never negative for a non-negative fare |
| CarSelection.PromoAndChargeDiffer | src/pages/CarSelection.jsx:103 | corollary: the displayed return price is `round(1.95 * fare)`, while the charged round trip is `1.9 * fare` |
| CarSelection.EconomySedanPromo | src/pages/CarSelection.jsx:96-104 | example: the Economy Sedan tile shows 77.5 and 74.5, and on a round trip 155 and 151 with a 4 pound badge |
| CarSelection.OfferedCars | src/pages/CarSelection.jsx:22-26 | the offer is the catalog cars that fit the parsed counts; a missing trip or an unparsable count (`NaN`) offers nothing |
| CarSelection.ReachableTripOffersLuxuryVan | src/pages/CarSelection.jsx:22-26 | every trip the home form can produce is offered at least the Luxury Van |
| CarSelection.SelectReturn | src/pages/CarSelection.jsx:162-163 | the Return button selects its car only on a round trip and otherwise leaves the selection alone |
| Home.HandleChange | src/pages/Home.jsx:29-35 | a text change sets exactly its field and a checkbox change exactly `isRoundTrip`; every other field keeps its value |
| Home.InitialTripReachable | src/pages/Home.jsx:8-20 | the initial record is one way, with in-range counts and valid location types |
| Home.HandleChangeKeepsReachable | src/pages/Home.jsx:186-201 | with the toggle commented out, no event the form can fire makes the trip a round trip or fills in a return date or time, and the selects stay within their options |
| Home.ReturnFieldsRequiredOnlyOnRoundTrip | src/pages/Home.jsx:232-259 | the return date and time take part in the `required` check exactly on a round trip |
| Home.RequiredFilled | src/pages/Home.jsx:59-259 | the browser submits the trip form only when every rendered `required` control is non-empty; `Home.ReturnFieldsRequiredOnlyOnRoundTrip` states which controls count |
| Home.CanFire | src/pages/Home.jsx:66-201 | the changes the rendered controls can fire: a select only one of its options, the return fields only on a round trip, the commented-out checkbox never; `Home.HandleChangeKeepsReachable` is its partner |
| Home.OptionsAreNumerals | src/pages/Home.jsx:160-180 | the passenger options are the numerals 1 to 10 and the luggage options 0 to 10 |
| Home.ReachableCounts | src/pages/Home.jsx:153-182 | the counts of a reachable trip parse to 1 to 10 passengers and 0 to 10 bags |
| UserInfo.HandleChange | src/pages/UserInfo.jsx:52-55 | the named field takes the value and every other field keeps its own |
| UserInfo.ValidEmailMatchesPattern | src/pages/UserInfo.jsx:64 | the email test accepts exactly the strings the regular expression matches: both directions |
| UserInfo.ValidEmail | src/pages/UserInfo.jsx:64 | the email test: no whitespace, exactly one `@` that is not first, and a dot with characters on both sides after it; `UserInfo.ValidEmailMatchesPattern` shows it accepts exactly the pattern's strings |
| UserInfo.MatchesEmailPattern | src/pages/UserInfo.jsx:64 | a literal reading of `^[^\s@]+@[^\s@]+\.[^\s@]+$`, the reference `UserInfo.ValidEmail` is proved equal to |
| UserInfo.Validate | src/pages/UserInfo.jsx:57-68 | errors only on required fields; a non-email required field errs exactly when blank after trimming, with "Required"; the email errs exactly when it fails the pattern, with "Required" when empty and "Enter a valid email" otherwise, even when it is only whitespace |
| UserInfo.BlankErrors | src/pages/UserInfo.jsx:59-63 | the loop marks exactly the listed fields whose value trims to nothing, each with "Required" |
| UserInfo.ValidEmailNotBlank | src/pages/UserInfo.jsx:64-65 | a blank email never passes the pattern |
| UserInfo.ValidateEmptyIff | src/pages/UserInfo.jsx:57-74 | the form passes exactly when every required non-email field is non-blank and the email matches the pattern |
| UserInfo.BlankCityOnly | src/pages/UserInfo.jsx:20-27 | a form that is complete except for an empty city gets the single error `city: "Required"` |
| Payment.GroupDigitsInsertsSpaces | src/pages/Payment.jsx:38 | the `(\d{4})` scan only inserts plain spaces: removing whitespace gives the input back |
| Payment.GroupDigits | src/pages/Payment.jsx:38 | the `replace(/(\d{4})/g, '$1 ')` scan never shortens the text; its value on every text is fixed by `Payment.GroupDigitsOfFullGroup` (four digits become a group and a space), `Payment.GroupDigitsOfShortRun` (a shorter run before another character is kept), `Payment.GroupDigitsOfNoDigits` (other characters are kept) and `Payment.GroupDigitsShort` (a tail under four characters is kept) |
| Payment.GroupDigitsOfShortRun | src/pages/Payment.jsx:38 | one to three digits followed by a character that is not a digit form no group: the scan keeps them and that character unchanged |
| Payment.GroupDigitsOfFullGroup | src/pages/Payment.jsx:38 | four leading digits become a group followed by a space, and the scan continues after them |
| Payment.GroupDigitsOfNoDigits | src/pages/Payment.jsx:38 | characters that are not digits pass through the scan unchanged |
| Payment.GroupDigitsShort | src/pages/Payment.jsx:38 | fewer than four characters contain no group and pass unchanged |
| Payment.FormatCardNumber | src/pages/Payment.jsx:37-40 | the stored card number is at most 19 characters |
| Payment.FormatCardNumberKeepsText | src/pages/Payment.jsx:37-40 | whatever is typed, the field keeps the typed non-whitespace characters in order, possibly cut short, and any whitespace in it is a plain space |
| Payment.FormatCardNumberOfDigits | src/pages/Payment.jsx:37-40 | typed digits, with or without spaces, show as the first sixteen digits in groups of four separated by single spaces |
| Payment.GroupedShape | src/pages/Payment.jsx:166 | the grouped layout adds one space per completed group and starts and ends with a digit |
| Payment.RemoveWhitespaceOfGrouped | src/pages/Payment.jsx:38 | removing the spaces of the grouped layout gives the digits back |
| Payment.GroupDigitsOfDigits | src/pages/Payment.jsx:38 | on digits the scan is the grouped layout, followed by one space when the last group is complete |
| Payment.FormatCardNumberIdempotent | src/pages/Payment.jsx:37-40 | re-formatting a card number formatted from typed digits (and whitespace) changes nothing |
| Payment.CutAfterGroupKeepsSpace | src/pages/Payment.jsx:37-40 | for other input idempotence fails: fourteen characters that are neither digits nor whitespace followed by five digits are stored with a trailing space, which the next keystroke trims away |
| Payment.SixteenDigitsShowFourGroups | src/pages/Payment.jsx:166 | example: sixteen digits typed in one go show as `dddd dddd dddd dddd` |
| Payment.FormatExpiry | src/pages/Payment.jsx:43-49 | at most 5 characters; the digits kept are the first four typed; the slash at position 2 appears exactly when two digits were typed; fewer than two digits stay as they are; every other character is a digit; which digits are kept is fixed by `Text.KeepDigitsOfChar` |
| Payment.ExpiryDropsNonDigit | src/pages/Payment.jsx:44-46 | a character that is not a digit typed between two digits is dropped, so they show as `MM/` |
| Payment.ExpirySlashAfterTwoDigits | src/pages/Payment.jsx:45-46 | two digits get a slash after them, and erasing that slash brings it straight back |
| Payment.FormatExpiryIdempotent | src/pages/Payment.jsx:43-49 | re-formatting a formatted expiry changes nothing |
| Payment.FormatCvv | src/pages/Payment.jsx:52-54 | only digits, at most four; the first four digits typed, or all of them when fewer; which digits are kept is fixed by `Text.KeepDigitsOfChar` |
| Payment.FormatCvvIdempotent | src/pages/Payment.jsx:52-54 | re-formatting a formatted CVV changes nothing |
| Payment.HandleChange | src/pages/Payment.jsx:33-57 | the named card field takes its formatted value (the name unformatted) and the other fields keep theirs |
| Payment.HandleChangeKeepsWellFormed | src/pages/Payment.jsx:33-57 | typing keeps the card-number, expiry and CVV lengths within 19, 5 and 4, and the CVV digits only |
| Payment.CardFilled | src/pages/Payment.jsx:155-216 | the browser submits the card form only when all four `required` inputs are non-empty; `Flow.PayStep` states that paying needs it |
| Payment.DistanceCharge | src/pages/Payment.jsx:298 | the distance charge exists exactly when the stored total is two-decimal text |
| Payment.DistanceChargeOfCatalogCar | src/pages/Payment.jsx:298 | for a catalog car the distance charge reads back as the total less the base fare, and one way it is the text of `25 * rate` |
| Payment.DistanceChargeOfWholePence | src/pages/Payment.jsx:298 | for any car whose base fare and total are whole pence, the distance charge reads back as the total less the base fare |
| Flow.Enter | frontend/src/App.jsx:18-24 | entering a route shows a page that belongs to the route it ends on, a route its guard lets the visitor into; the car and payment pages show the stored booking, and a home page starts from the initial trip |
| Flow.Open | src/pages/Payment.jsx:17-31 | the guards: the car page needs a stored booking, the passenger and payment pages one with a selected car; `Flow.EnterShowsOpenRoutes` and `Flow.GuardRedirects` are its partners |
| Flow.EnterShowsOpenRoutes | src/pages/Payment.jsx:17-31 | a route is shown exactly when its guard lets the visitor in |
| Flow.GuardRedirects | src/pages/UserInfo.jsx:36-46 | with nothing stored, the car and payment pages send the visitor to `/` and the passenger page to `/booking`; without a car, the passenger and payment pages send the visitor to the car page, which shows the stored booking with nothing selected |
| Flow.EnterSettles | src/pages/CarSelection.jsx:12-17 | following a redirect ends there: entering the route one was sent to shows it |
| Flow.InfoPrefill | src/pages/UserInfo.jsx:47-49 | the passenger form starts from the stored details when there are any, and from the initial form otherwise |
| Flow.TripInputStep | src/pages/Home.jsx:29-35 | on the home page a change the form can fire updates the trip; nothing is stored and the route stays |
| Flow.SubmitTripStep | src/pages/Home.jsx:22-27 | once the `required` check passes, the stored record becomes exactly the trip and the car page shows it with nothing selected; otherwise nothing happens |
| Flow.PickStep | src/pages/CarSelection.jsx:41-43 | picking an offered car selects it (Return only on a round trip); session, route and booking stay |
| Flow.ContinueStep | src/pages/CarSelection.jsx:45-56 | without a selection nothing happens; with one, the record gains exactly the car and its total price text and the passenger route follows |
| Flow.UserInputStep | src/pages/UserInfo.jsx:52-55 | on the passenger page a typed value updates the form; nothing is stored |
| Flow.SubmitUserStep | src/pages/UserInfo.jsx:70-79 | errors keep the session and route and show the errors; valid details become the record's `user`, merged into an empty record when none is stored, and the payment page shows the record when the passenger page was open |
| Flow.StoreDetails | src/pages/UserInfo.jsx:76-78 | the stored record gains exactly the details, and the payment page shows it when a car was selected |
| Flow.CardInputStep | src/pages/Payment.jsx:33-57 | on the payment page a typed value updates the card form; the stored booking stays |
| Flow.PayStep | src/pages/Payment.jsx:59-74 | with every card field filled, paying removes the stored record and lands on `/` with a fresh form; otherwise nothing happens |
| Flow.Step | frontend/src/App.jsx:18-24 | a link is `Flow.GoStep`; from any visit whose page belongs to its route and whose guard admits the session, every event leads to another such visit |
| Flow.GoStep | frontend/src/App.jsx:18-21 | a link between `/` and `/booking` keeps the mounted home page and the trip typed into it, since both routes render the same component; any other link mounts the page of the route entered, through its guard |
| Flow.Run | frontend/src/App.jsx:18-24 | a sequence of events never leaves the visits whose page belongs to its route and whose guard admits the session |
| Flow.InitialVisitInv | src/pages/Home.jsx:8-20 | a fresh visit satisfies the flow invariant |
| Flow.EnterKeepsInv | frontend/src/App.jsx:18-24 | entering any route with a well-formed stored booking keeps the invariant |
| Flow.StepKeepsInv | src/pages/Home.jsx:186-201 | every event keeps the invariant, notably that the stored trip is one way and any stored car was offered for it |
| Flow.RunKeepsInv | frontend/src/App.jsx:18-24 | every state a visit can reach keeps the invariant |
| Flow.ReachedPaymentBooking | src/pages/Payment.jsx:17-31 | whenever a visit is on the payment page, it shows the stored booking, which holds an offered car and that car's one-way price text |
| Flow.ReachedPaymentFacts | src/pages/Payment.jsx:298 | on any reachable payment page the stored total reads back as the one-way fare of the offered car, and the distance charge shown is the text of `25 * rate` |
| Flow.StoredCarPricedInPence | src/pages/CarSelection.jsx:51 | a stored car's base fare and one-way fare are whole pence, and its total is stored as that fare's two-decimal text |
| Flow.OneWayPriceFacts | src/pages/Payment.jsx:298 | for a car priced in whole pence, the stored one-way text reads back as its fare and the distance charge is the mileage part of that fare |
| Flow.StoredBookingPricedOneWay | src/pages/CarSelection.jsx:48-52 | every stored booking with an offered car and its price text is priced one way, as the payment summary reads it |
| Flow.ContinuePricesOneWay | src/pages/CarSelection.jsx:33-38 | since no round trip is reachable, Continue always stores the one-way price |
| Flow.PaymentClearsSession | src/pages/Payment.jsx:70-73 | after paying nothing is stored, so every later navigation ends on a home page |

## Left out

- Storage: `localStorage` and JSON (de)serialisation. The stored record is an in-memory `Option<Booking>`.
- One tab: writes to `bookingData` from another tab, or by hand, are not modelled. Two tabs of one browser profile share the key and the last write wins, so a payment page open in one tab can show a booking another tab has since replaced, and paying there removes the other tab's booking. The reachable-state lemmas in `Flow` (`Flow.ReachedPaymentBooking`, `Flow.ReachedPaymentFacts`, `Flow.StoredBookingPricedOneWay`) hold for a single tab. The empty-record fallback of `Flow.StoreDetails` is reachable only through such an outside write.
- Passenger and luggage counts: JSON keeps the initial counts as numbers, but `parseInt` reads them the same as the option texts used here.
- React hooks, rendering, markup and CSS. The router is modelled as route values, and a `navigate` is entering the named route.
- The `About` and `Contact` routes, `Contact.jsx` and `About.jsx`: static content with no logic. `Footer.jsx` holds links to `/`, `/about`, `/booking` and `/contact`; the links into the flow are `Go` events of `Flow.Step`, the other two are not modelled.
- Text lengths: a Dafny string is a sequence of Unicode scalar values, while JavaScript's `.length` and `.slice` count UTF-16 code units. Card-number, expiry and CVV lengths are counted in code points here, so a card number holding characters outside the Basic Multilingual Plane (an emoji, say) is cut at a different place than in the browser, where `.slice(0, 19)` can split a surrogate pair.
- Payment timers: the 2 s processing delay and the 3 s redirect of the payment page collapse into one atomic `Flow.PayStep`. So does the "Booking Confirmed" screen shown in between. A redirect that still fires after the visitor has navigated away is not modelled.
- Floating point: prices are exact reals. IEEE-754 artefacts of `Math.round` and `toFixed` (such as `x * 0.95` landing just below a half) are not modelled, and neither is `toFixed` on values of 1e21 and above.
- `Decimal.ParseInt` covers decimal numerals only: the `0x` hexadecimal prefix `parseInt` also accepts is not modelled. Every text this flow feeds it is a select option.
- `Payment.DistanceCharge` reads back only two-decimal text, the only shape the flow stores. `parseFloat`'s leniency on other text is not modelled (it returns `None`).
- Browser checks: the `type="email"` check of the email input is not modelled. `validate` decides on its own here.
- The `min` of the date inputs: it depends on the clock.
- Locations: the airport list (`../data/airports`) is not part of this model. Location fields are free text.
- Home.RequiredFilled: counts any non-empty location as filled. When the location type is `airport` the control is a `required` select whose first option has the empty value. A location typed as free text and left behind by switching the type to `airport` matches no option, so the browser shows the placeholder and blocks the submit. Here that stale value passes the check, because the airport codes are not part of this model.
- Car images: the catalog's image URLs, which the car tiles and the payment summary display, are not modelled. Names, features and descriptions are carried as data, but nothing depends on them.
- The expiry formatter's later `if (value.length > 5)` cut (`src/pages/Payment.jsx:48`) is never taken. The preceding lines already give at most five characters, which `Payment.FormatExpiry` states and proves, so that cut is not a separate step.
- The round-trip charge: `CarSelection.ChargedTotal` models it for any trip. The flow never reaches a round trip because the toggle is commented out, so the payment-page facts are proved for one-way bookings. On a round trip the distance charge would also include 90% of the base fare.
- Payment.FormatCardNumberIdempotent: states idempotence only for typed digits. The card-number input accepts any text, and `Payment.CutAfterGroupKeepsSpace` shows a non-digit entry whose stored value ends in a space.
- The passenger form's prefill: `{...prev, ...bookingData.user}` is modelled as taking the stored form whole. Every stored `user` is a complete form written by this page.

=== FILE: car_selection.dfy ===
/** The pure logic of the vehicle-selection page: the cars it offers, the
    charged total it stores, and the promotional figures it displays. The
    charged total and the promotional figures use different discounts and are
    kept as separate definitions on purpose. */
module CarSelection {
  import opened Optional
  import opened Decimal
  import opened Money
  import opened Cars
  import opened Home

  /** The trip length every fare assumes, in miles. */
  const EstimatedMiles: real := 25.0

  /** Flat amount taken off the one-way promotional price, in pounds. */
  const OneWayDiscount: real := 3.0

  /** Share of the one-way fare the charged total adds for the return leg. */
  const ChargedReturnRate: real := 0.9

  /** Share of the one-way fare the promotional return price adds for the
      return leg. */
  const PromoReturnRate: real := 0.95

  /** `basePrice + pricePerMile * estimatedMiles`. */
  function OneWayFare(c: Car): real {
    c.basePrice + c.pricePerMile * EstimatedMiles
  }

  /** The exact amount `calculatePrice` charges before formatting: the
      one-way fare, plus 90% of it again for a round trip. */
  function ChargedTotal(c: Car, isRoundTrip: bool): (r: real)
    ensures isRoundTrip ==> r == 1.9 * OneWayFare(c)
    ensures !isRoundTrip ==> r == OneWayFare(c)
  {
    var oneWay := OneWayFare(c);
    if isRoundTrip then oneWay + oneWay * ChargedReturnRate else oneWay
  }

  /** `calculatePrice`: the charged total as the `toFixed(2)` text stored in
      the booking. */
  function TotalPriceText(c: Car, isRoundTrip: bool): string {
    ToFixed2(ChargedTotal(c, isRoundTrip))
  }

  /** The stored text reads back as the charged total rounded to pence: it is
      two-decimal text and loses nothing beyond that rounding. */
  lemma TotalPriceTextReadsBack(c: Car, isRoundTrip: bool)
    ensures ParseFixed2(TotalPriceText(c, isRoundTrip)) == Some(Hundredths(ChargedTotal(c, isRoundTrip)))
  {
    ParseToFixed2(ChargedTotal(c, isRoundTrip));
  }

  /** A round trip never costs less than the one-way trip for a car with
      non-negative prices, and costs at most 1.9 times as much. */
  lemma RoundTripCostsMore(c: Car)
    requires c.basePrice >= 0.0 && c.pricePerMile >= 0.0
    ensures OneWayFare(c) <= ChargedTotal(c, true) <= 1.9 * OneWayFare(c)
    ensures ChargedTotal(c, false) >= 0.0
  {
  }

  /** Raising the base price or the rate per mile never lowers the charged
      total, exact or as rounded to pence. */
  lemma ChargedTotalMonotone(c: Car, d: Car, isRoundTrip: bool)
    requires c.basePrice <= d.basePrice && c.pricePerMile <= d.pricePerMile
    ensures ChargedTotal(c, isRoundTrip) <= ChargedTotal(d, isRoundTrip)
    ensures Hundredths(ChargedTotal(c, isRoundTrip)) <= Hundredths(ChargedTotal(d, isRoundTrip))
  {
    HundredthsMonotone(ChargedTotal(c, isRoundTrip), ChargedTotal(d, isRoundTrip));
  }

  /** Every catalog fare is a whole number of pence for either kind of trip, so
      the two-decimal text of the charged total is exact. */
  lemma CatalogTotalsExact(c: Car, isRoundTrip: bool)
    requires c in Catalog
    ensures IsHundredths(ChargedTotal(c, isRoundTrip))
    ensures ParseFixed2(TotalPriceText(c, isRoundTrip)) == Some(ChargedTotal(c, isRoundTrip))
  {
    var t := ChargedTotal(c, isRoundTrip);
    var k :=
      if c == Catalog[0] then (if isRoundTrip then 14725 else 7750)
      else if c == Catalog[1] then (if isRoundTrip then 18050 else 9500)
      else if c == Catalog[2] then (if isRoundTrip then 28025 else 14750)
      else if c == Catalog[3] then (if isRoundTrip then 24700 else 13000)
      else if c == Catalog[4] then (if isRoundTrip then 35625 else 18750)
      else if c == Catalog[5] then (if isRoundTrip then 28975 else 15250)
      else (if isRoundTrip then 39900 else 21000);
    assert k as real == t * 100.0;
    assert (k as real).Floor == k;
    ParseToFixed2(t);
    HundredthsExact(t);
  }

  /** The Economy Sedan costs 15 + 2.5 * 25 = 77.50 one way and
      77.50 + 69.75 = 147.25 for a round trip. */
  lemma EconomySedanTotals()
    ensures TotalPriceText(Catalog[0], false) == "77.50"
    ensures TotalPriceText(Catalog[0], true) == "147.25"
  {
    assert Cents(77.5) == 7750;
    assert NatToString(77) == NatToString(7) + [DigitChar(7)];
    assert Cents(147.25) == 14725;
    assert NatToString(147) == NatToString(14) + [DigitChar(7)];
    assert NatToString(14) == NatToString(1) + [DigitChar(4)];
  }

  /** The figures one car's tile shows. `returnNew` exists only on a round
      trip; the struck-through `returnOld` is shown either way. */
  datatype PromoFigures = PromoFigures(
    oneWayOld: real,
    oneWayNew: real,
    returnOld: int,
    returnNew: Option<int>,
    returnDiscount: int)

  /** The promotional figures of one tile: the one-way fare struck through
      next to it less 3 pounds (never below zero), and twice the fare rounded
      struck through next to the fare plus 95% rounded, with the difference as
      the badge. */
  function Promo(c: Car, isRoundTrip: bool): (r: PromoFigures)
    ensures r.oneWayOld == OneWayFare(c)
    ensures r.oneWayNew >= 0.0
    ensures r.oneWayOld >= 0.0 ==> r.oneWayNew <= r.oneWayOld
    ensures r.oneWayOld >= OneWayDiscount ==> r.oneWayNew == r.oneWayOld - OneWayDiscount
    ensures r.oneWayOld < OneWayDiscount ==> r.oneWayNew == 0.0
    ensures r.returnOld as real - 0.5 <= 2.0 * r.oneWayOld < r.returnOld as real + 0.5
    ensures r.returnNew.Some? ==>
      r.returnNew.value as real - 0.5 <= 1.95 * r.oneWayOld < r.returnNew.value as real + 0.5
    ensures r.returnNew.Some? <==> isRoundTrip
    ensures !isRoundTrip ==> r.returnDiscount == 0
    ensures r.returnNew.Some? ==> r.returnDiscount == r.returnOld - r.returnNew.value
    ensures r.oneWayOld >= 0.0 ==> r.returnDiscount >= 0
  {
    var oneWayOld := OneWayFare(c);
    var oneWayNew := if oneWayOld - OneWayDiscount > 0.0 then oneWayOld - OneWayDiscount else 0.0;
    var returnOld := RoundHalfUp(oneWayOld * 2.0);
    if isRoundTrip then
      var returnNew := RoundHalfUp(oneWayOld + oneWayOld * PromoReturnRate);
      RoundHalfUpMonotone(oneWayOld + oneWayOld * PromoReturnRate, oneWayOld * 2.0);
      PromoFigures(oneWayOld, oneWayNew, returnOld, Some(returnNew), returnOld - returnNew)
    else
      PromoFigures(oneWayOld, oneWayNew, returnOld, None, 0)
  }

  /** The promotional return price is the fare times 1.95, rounded; the
      charged round trip is the fare times 1.9, to the penny. The two agree
      only by accident. */
  lemma PromoAndChargeDiffer(c: Car)
    ensures Promo(c, true).returnNew == Some(RoundHalfUp(1.95 * OneWayFare(c)))
    ensures ChargedTotal(c, true) == 1.9 * OneWayFare(c)
  {
  }

  /** On the Economy Sedan tile: 77.5 struck through next to 74.5, and on a
      round trip 155 struck through next to 151 with a 4 pound badge. */
  lemma EconomySedanPromo()
    ensures Promo(Catalog[0], true) == PromoFigures(77.5, 74.5, 155, Some(151), 4)
    ensures Promo(Catalog[0], false) == PromoFigures(77.5, 74.5, 155, None, 0)
  {
  }

  /** The cars the page offers for a stored trip: `getAvailableCars` of the
      parsed counts. A missing trip or a count that does not parse is `NaN`,
      and every comparison with `NaN` is false, so nothing is offered. */
  function OfferedCars(trip: Option<Trip>): (r: seq<Car>)
    ensures trip.None? ==> r == []
    ensures trip.Some? && (ParseInt(trip.value.passengers).None? || ParseInt(trip.value.luggage).None?) ==> r == []
    ensures trip.Some? && ParseInt(trip.value.passengers).Some? && ParseInt(trip.value.luggage).Some? ==>
      forall c :: c in r <==>
        c in Catalog && Fits(c, ParseInt(trip.value.passengers).value, ParseInt(trip.value.luggage).value)
  {
    match trip
    case None => []
    case Some(t) =>
      match (ParseInt(t.passengers), ParseInt(t.luggage))
      case (Some(p), Some(l)) => GetAvailableCars(p, l)
      case _ => []
  }

  /** Every trip the home form can produce is offered at least the Luxury
      Van, so the list is never empty. */
  lemma ReachableTripOffersLuxuryVan(t: Trip)
    requires Reachable(t)
    ensures Catalog[6] in OfferedCars(Some(t))
  {
    ReachableCounts(t);
    var p := ParseInt(t.passengers).value;
    var l := ParseInt(t.luggage).value;
    OfferedCarsOfCounts(t, p, l);
    LuxuryVanFits(p, l);
  }

  lemma OfferedCarsOfCounts(t: Trip, p: int, l: int)
    requires ParseInt(t.passengers) == Some(p) && ParseInt(t.luggage) == Some(l)
    ensures OfferedCars(Some(t)) == GetAvailableCars(p, l)
  {
  }

  lemma LuxuryVanFits(p: int, l: int)
    requires p <= 10 && l <= 10
    ensures Catalog[6] in GetAvailableCars(p, l)
  {
    assert Fits(Catalog[6], p, l);
  }

  /** The "Return" button selects its car only on a round trip; otherwise it
      is disabled and the selection stays as it was. */
  function SelectReturn(isRoundTrip: bool, selected: Option<Car>, c: Car): (r: Option<Car>)
    ensures isRoundTrip ==> r == Some(c)
    ensures !isRoundTrip ==> r == selected
  {
    if isRoundTrip then Some(c) else selected
  }
}

=== FILE: cars.dfy ===
/** The fixed vehicle catalog and the capacity filter the vehicle-selection
    page offers cars from. */
module Cars {

  datatype CarType = Sedan | Executive | Suv | Luxury | Van

  datatype Capacity = Capacity(passengers: nat, luggage: nat)

  /** One catalog entry. Prices are in pounds: a flat `basePrice` plus
      `pricePerMile` for every mile driven. */
  datatype Car = Car(
    id: nat,
    name: string,
    kind: CarType,
    capacity: Capacity,
    pricePerMile: real,
    basePrice: real,
    features: seq<string>,
    description: string)

  const Catalog: seq<Car> := [
    Car(1, "Economy Sedan", Sedan, Capacity(3, 2), 2.5, 15.0,
        ["Air Conditioning", "GPS Navigation", "Bluetooth"],
        "Perfect for solo travelers or small groups looking for an affordable ride."),
    Car(2, "Comfort Sedan", Sedan, Capacity(4, 3), 3.0, 20.0,
        ["Air Conditioning", "GPS Navigation", "Bluetooth", "Premium Sound"],
        "Enhanced comfort with extra space for a relaxing journey."),
    Car(3, "Executive Sedan", Executive, Capacity(4, 3), 4.5, 35.0,
        ["Leather Seats", "Wi-Fi", "Premium Sound", "Complimentary Water", "USB Charging"],
        "Luxury travel experience with premium amenities and professional service."),
    Car(4, "SUV", Suv, Capacity(6, 5), 4.0, 30.0,
        ["Air Conditioning", "GPS Navigation", "Third Row Seating", "Spacious Cargo"],
        "Spacious vehicle ideal for families or groups with extra luggage."),
    Car(5, "Luxury SUV", Luxury, Capacity(6, 5), 5.5, 50.0,
        ["Leather Seats", "Wi-Fi", "Premium Sound", "Climate Control", "Complimentary Refreshments"],
        "Ultimate luxury and comfort for discerning travelers."),
    Car(6, "Van", Van, Capacity(8, 8), 4.5, 40.0,
        ["Air Conditioning", "GPS Navigation", "Extra Luggage Space", "USB Charging"],
        "Perfect for large groups or families with extensive luggage requirements."),
    Car(7, "Luxury Van", Luxury, Capacity(10, 10), 6.0, 60.0,
        ["Leather Seats", "Wi-Fi", "Premium Entertainment", "Climate Control", "VIP Service"],
        "Premium group transportation with first-class amenities.")
  ]

  /** The catalog's own invariants: entry `i` has id `i + 1` (so ids are
      distinct) and both prices of every car are positive. */
  lemma CatalogWellFormed()
    ensures |Catalog| == 7
    ensures forall i :: 0 <= i < |Catalog| ==> Catalog[i].id == i + 1
    ensures forall i, j :: 0 <= i < j < |Catalog| ==> Catalog[i].id != Catalog[j].id
    ensures forall c :: c in Catalog ==> c.basePrice > 0.0 && c.pricePerMile > 0.0
  {
  }

  /** A car can take the requested party: at least as many seats and at least
      as much luggage room as asked for. */
  predicate Fits(c: Car, passengers: int, luggage: int) {
    c.capacity.passengers >= passengers && c.capacity.luggage >= luggage
  }

  /** `a` is obtained from `b` by deleting elements: order kept, nothing
      repeated or invented. */
  ghost predicate SubsequenceOf<T>(a: seq<T>, b: seq<T>)
    decreases |b|
  {
    if a == [] then true
    else if b == [] then false
    else (a[0] == b[0] && SubsequenceOf(a[1..], b[1..])) || SubsequenceOf(a, b[1..])
  }

  /** `cars.filter(car => Fits(car, passengers, luggage))`. */
  function Filter(cs: seq<Car>, passengers: int, luggage: int): (r: seq<Car>)
    ensures forall c :: c in r <==> c in cs && Fits(c, passengers, luggage)
    ensures |r| <= |cs|
    decreases |cs|
  {
    if cs == [] then []
    else if Fits(cs[0], passengers, luggage) then [cs[0]] + Filter(cs[1..], passengers, luggage)
    else Filter(cs[1..], passengers, luggage)
  }

  /** `getAvailableCars`: the catalog cars that fit the request, in catalog
      order. */
  function GetAvailableCars(passengers: int, luggage: int): (r: seq<Car>)
    ensures forall c :: c in r <==> c in Catalog && Fits(c, passengers, luggage)
  {
    Filter(Catalog, passengers, luggage)
  }

  /** The filter keeps catalog order and neither repeats nor invents a car. */
  lemma {:induction false} FilterIsSubsequence(cs: seq<Car>, passengers: int, luggage: int)
    ensures SubsequenceOf(Filter(cs, passengers, luggage), cs)
    decreases |cs|
  {
    if cs != [] {
      FilterIsSubsequence(cs[1..], passengers, luggage);
      var rest := Filter(cs[1..], passengers, luggage);
      if Fits(cs[0], passengers, luggage) {
        assert ([cs[0]] + rest)[1..] == rest;
      } else {
        SubsequenceOfTail(rest, cs);
      }
    }
  }

  lemma SubsequenceOfTail<T>(a: seq<T>, b: seq<T>)
    requires b != [] && SubsequenceOf(a, b[1..])
    ensures SubsequenceOf(a, b)
  {
  }

  lemma AvailableCarsAreSubsequence(passengers: int, luggage: int)
    ensures SubsequenceOf(GetAvailableCars(passengers, luggage), Catalog)
  {
    FilterIsSubsequence(Catalog, passengers, luggage);
  }

  /** Asking for more seats or more luggage room can only remove cars from the
      offer, never add or reorder them. */
  lemma {:induction false} FilterMonotone(cs: seq<Car>, p: int, l: int, p': int, l': int)
    requires p <= p' && l <= l'
    ensures SubsequenceOf(Filter(cs, p', l'), Filter(cs, p, l))
    decreases |cs|
  {
    if cs != [] {
      FilterMonotone(cs[1..], p, l, p', l');
      var small := Filter(cs[1..], p', l');
      var big := Filter(cs[1..], p, l);
      if Fits(cs[0], p', l') {
        assert ([cs[0]] + small)[1..] == small;
        assert ([cs[0]] + big)[1..] == big;
      } else if Fits(cs[0], p, l) {
        SubsequenceOfTail(small, [cs[0]] + big);
      }
    }
  }

  lemma AvailableCarsMonotone(p: int, l: int, p': int, l': int)
    requires p <= p' && l <= l'
    ensures SubsequenceOf(GetAvailableCars(p', l'), GetAvailableCars(p, l))
  {
    FilterMonotone(Catalog, p, l, p', l');
  }

  /** Filtering with a test every car passes keeps the whole list. */
  lemma {:induction false} FilterAllFit(cs: seq<Car>, passengers: int, luggage: int)
    requires forall c :: c in cs ==> Fits(c, passengers, luggage)
    ensures Filter(cs, passengers, luggage) == cs
    decreases |cs|
  {
    if cs != [] {
      assert forall c :: c in cs[1..] ==> c in cs;
      FilterAllFit(cs[1..], passengers, luggage);
    }
  }

  /** Up to three passengers with up to two bags fit every car, so all seven
      are offered; more than ten of either fits none. */
  lemma AvailableCarsExtremes(passengers: int, luggage: int)
    ensures passengers <= 3 && luggage <= 2 ==> GetAvailableCars(passengers, luggage) == Catalog
    ensures passengers > 10 || luggage > 10 ==> GetAvailableCars(passengers, luggage) == []
  {
    if passengers <= 3 && luggage <= 2 {
      FilterAllFit(Catalog, passengers, luggage);
    }
  }

  /** Seven passengers with nine bags: only the Luxury Van is big enough. */
  lemma SevenPassengersNineBags()
    ensures GetAvailableCars(7, 9) == [Catalog[6]]
  {
  }
}

=== FILE: decimal.dfy ===
/** Decimal numerals: the text a number becomes when React renders it or a
    `<select>` option carries it, and JavaScript's `parseInt` reading one back. */
module Decimal {
  import opened Optional
  import opened Text

  function DigitValue(c: char): (d: nat)
    requires IsDigit(c)
    ensures d < 10
  {
    c as int - '0' as int
  }

  function DigitChar(d: nat): (c: char)
    requires d < 10
    ensures IsDigit(c) && DigitValue(c) == d
  {
    ('0' as int + d) as char
  }

  /** The decimal numeral of `n`, without leading zeros. */
  function NatToString(n: nat): (s: string)
    ensures s != [] && AllDigits(s)
    ensures |s| > 1 ==> s[0] != '0'
    decreases n
  {
    if n < 10 then [DigitChar(n)] else NatToString(n / 10) + [DigitChar(n % 10)]
  }

  /** The number a string of digits denotes. */
  function DigitsValue(s: string): nat
    requires AllDigits(s)
    decreases |s|
  {
    if s == [] then 0 else DigitsValue(s[..|s| - 1]) * 10 + DigitValue(s[|s| - 1])
  }

  /** Reading a numeral back gives the number it was written from. */
  lemma {:induction false} DigitsValueOfNatToString(n: nat)
    ensures DigitsValue(NatToString(n)) == n
    decreases n
  {
    var s := NatToString(n);
    if n >= 10 {
      assert s[..|s| - 1] == NatToString(n / 10);
      DigitsValueOfNatToString(n / 10);
    }
  }

  /** The longest prefix of `s` made of digits. */
  function LeadingDigits(s: string): (r: string)
    ensures |r| <= |s| && r == s[..|r|]
    ensures AllDigits(r)
    ensures |r| < |s| ==> !IsDigit(s[|r|])
    decreases |s|
  {
    if s != [] && IsDigit(s[0]) then [s[0]] + LeadingDigits(s[1..]) else []
  }

  /** `s` starts with a digit, possibly after one sign character. */
  predicate StartsWithNumeral(s: string) {
    if s != [] && (s[0] == '+' || s[0] == '-') then |s| > 1 && IsDigit(s[1])
    else s != [] && IsDigit(s[0])
  }

  /** `parseInt(s)` without a radix: leading whitespace skipped, an optional
      sign, then the longest run of digits; `None` stands for `NaN`, the result
      when no digit follows. */
  function ParseInt(s: string): (r: Option<int>)
    ensures r.Some? <==> StartsWithNumeral(TrimStart(s))
  {
    ParseSigned(TrimStart(s))
  }

  function ParseSigned(t: string): (r: Option<int>)
    ensures r.Some? <==> StartsWithNumeral(t)
  {
    if t != [] && t[0] == '-' then
      match ParseDigits(t[1..])
      case Some(n) => Some(-(n as int))
      case None => None
    else if t != [] && t[0] == '+' then ParseDigits(t[1..])
    else ParseDigits(t)
  }

  /** The value of the leading run of digits, `None` when there is none. */
  function ParseDigits(b: string): (r: Option<int>)
    ensures r.Some? <==> b != [] && IsDigit(b[0])
  {
    var digits := LeadingDigits(b);
    if digits == [] then None else Some(DigitsValue(digits))
  }

  /** `parseInt` reads back every numeral `NatToString` writes. */
  lemma ParseIntOfNatToString(n: nat)
    ensures ParseInt(NatToString(n)) == Some(n)
  {
    ParseIntOfDigits(NatToString(n));
    DigitsValueOfNatToString(n);
  }

  /** On a non-empty string of digits `parseInt` is the plain decimal value. */
  lemma ParseIntOfDigits(s: string)
    requires s != [] && AllDigits(s)
    ensures ParseInt(s) == Some(DigitsValue(s) as int)
  {
    assert !IsWhitespace(s[0]);
    assert TrimStart(s) == s;
    AllDigitsLeading(s);
  }

  lemma {:induction false} AllDigitsLeading(s: string)
    requires AllDigits(s)
    ensures LeadingDigits(s) == s
    decreases |s|
  {
    if s != [] {
      AllDigitsLeading(s[1..]);
    }
  }
}

=== FILE: flow.dfy ===
/** The booking flow across the four pages: the record kept in the session
    under `bookingData`, the routes, the guard each page runs when it is
    entered, and the events that move a booking forward from the trip form to
    payment. */
module Flow {
  import opened Optional
  import opened Money
  import opened Cars
  import opened Home
  import opened CarSelection
  import opened UserInfo
  import opened Payment

  /** The stored booking. The trip is what the home form saved; the car page
      adds the selected car and the total price text; the passenger page adds
      the passenger details. A record written from the passenger page when
      nothing was stored holds only the passenger details, so every part is
      optional. */
  datatype Booking = Booking(
    trip: Option<Trip>,
    selectedCar: Option<Car>,
    totalPrice: Option<string>,
    user: Option<UserForm>)

  /** The record `JSON.parse("{}")` gives. */
  const EmptyBooking: Booking := Booking(None, None, None, None)

  /** `/`, `/booking`, `/booking/cars`, `/booking/info` and `/booking/payment`. */
  datatype Route = Root | BookingHome | CarsRoute | InfoRoute | PaymentRoute

  /** The page on screen with its own component state. */
  datatype Page =
    | HomePage(trip: Trip)
    | CarsPage(booking: Booking, selected: Option<Car>)
    | InfoPage(form: UserForm, errors: map<Field, string>)
    | PaymentPage(paying: Booking, card: CardData)

  datatype Visit = Visit(session: Option<Booking>, route: Route, page: Page)

  /** A fresh visit: nothing stored, the home page with its initial form. */
  const InitialVisit: Visit := Visit(None, Root, HomePage(InitialTrip))

  /** `bookingData?.isRoundTrip`, false when no trip is stored. */
  predicate IsRoundTrip(b: Booking) {
    b.trip.Some? && b.trip.value.isRoundTrip
  }

  /** The entry guard of each route: the car page needs a stored booking, the
      passenger and payment pages need one with a selected car. */
  predicate Open(session: Option<Booking>, route: Route) {
    match route
    case Root => true
    case BookingHome => true
    case CarsRoute => session.Some?
    case InfoRoute => session.Some? && session.value.selectedCar.Some?
    case PaymentRoute => session.Some? && session.value.selectedCar.Some?
  }

  /** A visit as the screen can show it: the page belongs to the route, and
      the route's guard lets the stored session in. */
  predicate Shown(s: Visit) {
    PageOfRoute(s) && Open(s.session, s.route)
  }

  /** The page each route renders. */
  predicate PageOfRoute(s: Visit) {
    match s.page
    case HomePage(_) => s.route == Root || s.route == BookingHome
    case CarsPage(_, _) => s.route == CarsRoute
    case InfoPage(_, _) => s.route == InfoRoute
    case PaymentPage(_, _) => s.route == PaymentRoute
  }

  function Rank(r: Route): nat {
    match r
    case Root => 0
    case BookingHome => 0
    case CarsRoute => 1
    case InfoRoute => 2
    case PaymentRoute => 2
  }

  /** Entering a route mounts its page, whose effect either shows it or
      navigates on: the car page sends a visitor with nothing stored to `/`;
      the passenger page sends one to `/booking`, or to the car page when no
      car is selected, and otherwise pre-fills its form with the stored
      details; the payment page sends a visitor with nothing stored to `/`
      and one without a car to the car page. */
  function Enter(session: Option<Booking>, route: Route): (s: Visit)
    ensures s.session == session
    ensures PageOfRoute(s) && Open(session, s.route)
    ensures s.page.CarsPage? ==> s.page.booking == session.value && s.page.selected.None?
    ensures s.page.PaymentPage? ==> s.page.paying == session.value && s.page.card == EmptyCard
    ensures s.page.HomePage? ==> s.page.trip == InitialTrip
    decreases Rank(route)
  {
    match route
    case Root => Visit(session, Root, HomePage(InitialTrip))
    case BookingHome => Visit(session, BookingHome, HomePage(InitialTrip))
    case CarsRoute =>
      if session.None? then Enter(session, Root)
      else Visit(session, CarsRoute, CarsPage(session.value, None))
    case InfoRoute =>
      if session.None? then Enter(session, BookingHome)
      else if session.value.selectedCar.None? then Enter(session, CarsRoute)
      else Visit(session, InfoRoute, InfoPage(session.value.user.Or(InitialForm), map[]))
    case PaymentRoute =>
      if session.None? then Enter(session, Root)
      else if session.value.selectedCar.None? then Enter(session, CarsRoute)
      else Visit(session, PaymentRoute, PaymentPage(session.value, EmptyCard))
  }

  /** A route is shown exactly when its guard lets the visitor in. */
  lemma EnterShowsOpenRoutes(session: Option<Booking>, route: Route)
    ensures Enter(session, route).route == route <==> Open(session, route)
  {
  }

  /** Where each guard sends a visitor it turns away: the car page and the
      payment page send a visitor with nothing stored to `/`, the passenger
      page sends one to `/booking`; the passenger and payment pages send a
      visitor whose booking has no car to the car page. */
  lemma GuardRedirects(session: Option<Booking>)
    ensures session.None? ==>
      && Enter(session, CarsRoute).route == Root
      && Enter(session, InfoRoute).route == BookingHome
      && Enter(session, PaymentRoute).route == Root
    ensures session.Some? && session.value.selectedCar.None? ==>
      && Enter(session, CarsRoute) == Visit(session, CarsRoute, CarsPage(session.value, None))
      && Enter(session, InfoRoute).route == CarsRoute
      && Enter(session, PaymentRoute).route == CarsRoute
  {
  }

  /** Redirects settle: entering the route one was sent to shows it. */
  lemma EnterSettles(session: Option<Booking>, route: Route)
    ensures Enter(session, Enter(session, route).route) == Enter(session, route)
  {
  }

  /** The passenger form starts from the stored details when there are any,
      and from the initial form otherwise. */
  lemma InfoPrefill(b: Booking)
    requires b.selectedCar.Some?
    ensures Enter(Some(b), InfoRoute).page == InfoPage(b.user.Or(InitialForm), map[])
    ensures b.user.Some? ==> Enter(Some(b), InfoRoute).page.form == b.user.value
  {
  }

  /** What the user can do. */
  datatype Event =
    | Go(to: Route)
    | TripInput(change: ChangeEvent)
    | SubmitTrip
    | PickOneWay(car: Car)
    | PickReturn(car: Car)
    | Continue
    | UserInput(field: Field, value: string)
    | SubmitUser
    | CardInput(cardField: CardField, text: string)
    | PaySubmit

  /** One event. A link or back button is `GoStep`; the other events
      belong to one page each and leave everything as it is on any other
      page. */
  function Step(s: Visit, e: Event): (r: Visit)
    ensures Shown(s) ==> Shown(r)
    ensures e.Go? ==> r == GoStep(s, e.to)
  {
    match e
    case Go(to) => GoStep(s, to)
    case TripInput(ce) => TripInputStep(s, ce)
    case SubmitTrip => SubmitTripStep(s)
    case PickOneWay(c) => PickStep(s, c, false)
    case PickReturn(c) => PickStep(s, c, true)
    case Continue => ContinueStep(s)
    case UserInput(f, v) => UserInputStep(s, f, v)
    case SubmitUser => SubmitUserStep(s)
    case CardInput(f, v) => CardInputStep(s, f, v)
    case PaySubmit => PayStep(s)
  }

  /** Following a link. `/` and `/booking` render the same home component,
      so a link between them keeps the mounted page and the trip typed into
      it; any other link mounts the page of the route entered. */
  function GoStep(s: Visit, to: Route): (r: Visit)
    ensures r.session == s.session
    ensures s.page.HomePage? && (to == Root || to == BookingHome) ==>
      r.route == to && r.page == s.page
    ensures !(s.page.HomePage? && (to == Root || to == BookingHome)) ==> r == Enter(s.session, to)
  {
    if s.page.HomePage? && (to == Root || to == BookingHome)
    then Visit(s.session, to, s.page)
    else Enter(s.session, to)
  }

  /** The trip form takes a change one of its controls can fire. */
  function TripInputStep(s: Visit, ce: ChangeEvent): (r: Visit)
    ensures r.session == s.session && r.route == s.route
    ensures s.page.HomePage? && CanFire(s.page.trip, ce) ==> r.page == HomePage(Home.HandleChange(s.page.trip, ce))
    ensures !(s.page.HomePage? && CanFire(s.page.trip, ce)) ==> r == s
  {
    if s.page.HomePage? && CanFire(s.page.trip, ce)
    then s.(page := HomePage(Home.HandleChange(s.page.trip, ce)))
    else s
  }

  /** Submitting the trip form, once the browser lets it through, replaces
      the stored booking by one holding only the trip, forgetting any earlier
      car and details, and shows the car page. */
  function SubmitTripStep(s: Visit): (r: Visit)
    ensures s.page.HomePage? && RequiredFilled(s.page.trip) ==>
      && r.session == Some(Booking(Some(s.page.trip), None, None, None))
      && r.page == CarsPage(r.session.value, None)
    ensures !(s.page.HomePage? && RequiredFilled(s.page.trip)) ==> r == s
  {
    if s.page.HomePage? && RequiredFilled(s.page.trip)
    then Enter(Some(Booking(Some(s.page.trip), None, None, None)), CarsRoute)
    else s
  }

  /** The "One Way" and "Return" buttons of an offered car. One Way selects
      the car; Return selects it only on a round trip, and is disabled
      otherwise. */
  function PickStep(s: Visit, c: Car, isReturn: bool): (r: Visit)
    ensures r.session == s.session && r.route == s.route
    ensures s.page.CarsPage? && c in OfferedCars(s.page.booking.trip) ==>
      && r.page.CarsPage? && r.page.booking == s.page.booking
      && r.page.selected == (if isReturn && !IsRoundTrip(s.page.booking) then s.page.selected else Some(c))
    ensures !(s.page.CarsPage? && c in OfferedCars(s.page.booking.trip)) ==> r == s
  {
    if s.page.CarsPage? && c in OfferedCars(s.page.booking.trip) then
      var sel := if isReturn then SelectReturn(IsRoundTrip(s.page.booking), s.page.selected, c) else Some(c);
      s.(page := s.page.(selected := sel))
    else s
  }

  /** "Continue" does nothing until a car is selected; then the stored
      booking gains the car and the text of its total price, and the
      passenger page is shown. */
  function ContinueStep(s: Visit): (r: Visit)
    ensures s.page.CarsPage? && s.page.selected.Some? ==>
      var b := s.page.booking;
      var c := s.page.selected.value;
      && r.session == Some(b.(selectedCar := Some(c), totalPrice := Some(TotalPriceText(c, IsRoundTrip(b)))))
      && r.route == InfoRoute
    ensures !(s.page.CarsPage? && s.page.selected.Some?) ==> r == s
  {
    if s.page.CarsPage? && s.page.selected.Some? then
      var b := s.page.booking;
      var c := s.page.selected.value;
      var stored := b.(selectedCar := Some(c), totalPrice := Some(TotalPriceText(c, IsRoundTrip(b))));
      EnterShowsOpenRoutes(Some(stored), InfoRoute);
      Enter(Some(stored), InfoRoute)
    else s
  }

  /** The passenger form takes a typed value. */
  function UserInputStep(s: Visit, f: Field, v: string): (r: Visit)
    ensures r.session == s.session && r.route == s.route
    ensures s.page.InfoPage? ==>
      r.page == InfoPage(UserInfo.HandleChange(s.page.form, f, v), s.page.errors)
    ensures !s.page.InfoPage? ==> r == s
  {
    if s.page.InfoPage?
    then s.(page := s.page.(form := UserInfo.HandleChange(s.page.form, f, v)))
    else s
  }

  /** Submitting the passenger form: details that do not validate stay on the
      page with their errors and nothing is stored; details that validate are
      merged into the stored record, or into an empty one when nothing is
      stored, and the payment page is entered. */
  function SubmitUserStep(s: Visit): (r: Visit)
    ensures s.page.InfoPage? && Validate(s.page.form) != map[] ==>
      && r.session == s.session && r.route == s.route
      && r.page == InfoPage(s.page.form, Validate(s.page.form))
    ensures s.page.InfoPage? && Validate(s.page.form) == map[] ==>
      r.session == Some(s.session.Or(EmptyBooking).(user := Some(s.page.form)))
    ensures s.page.InfoPage? && Validate(s.page.form) == map[] && Open(s.session, InfoRoute) ==>
      r.route == PaymentRoute && r.page == PaymentPage(r.session.value, EmptyCard)
    ensures !s.page.InfoPage? ==> r == s
  {
    if s.page.InfoPage? then
      var errors := Validate(s.page.form);
      if errors != map[] then s.(page := s.page.(errors := errors))
      else StoreDetails(s.session, s.page.form)
    else s
  }

  /** Accepted details are merged into the stored record, or into an empty
      one, and the payment page is entered; it is shown when the passenger
      page was open. */
  function StoreDetails(session: Option<Booking>, form: UserForm): (r: Visit)
    ensures r.session == Some(session.Or(EmptyBooking).(user := Some(form)))
    ensures Open(session, InfoRoute) ==>
      r.route == PaymentRoute && r.page == PaymentPage(r.session.value, EmptyCard)
  {
    var stored := session.Or(EmptyBooking).(user := Some(form));
    EnterShowsOpenRoutes(Some(stored), PaymentRoute);
    Enter(Some(stored), PaymentRoute)
  }

  /** The card form takes a typed value, formatted. */
  function CardInputStep(s: Visit, f: CardField, v: string): (r: Visit)
    ensures r.session == s.session && r.route == s.route
    ensures s.page.PaymentPage? ==>
      r.page == PaymentPage(s.page.paying, Payment.HandleChange(s.page.card, f, v))
    ensures !s.page.PaymentPage? ==> r == s
  {
    if s.page.PaymentPage?
    then s.(page := s.page.(card := Payment.HandleChange(s.page.card, f, v)))
    else s
  }

  /** Paying, once every card field is filled, completes the booking: the
      stored record is removed and the visitor is back on the home page at
      `/`. */
  function PayStep(s: Visit): (r: Visit)
    ensures s.page.PaymentPage? && CardFilled(s.page.card) ==> r == InitialVisit
    ensures !(s.page.PaymentPage? && CardFilled(s.page.card)) ==> r == s
  {
    if s.page.PaymentPage? && CardFilled(s.page.card)
    then Enter(None, Root)
    else s
  }

  /** The state after a sequence of events. */
  function Run(s: Visit, events: seq<Event>): (r: Visit)
    ensures Shown(s) ==> Shown(r)
    decreases |events|
  {
    if events == [] then s else Run(Step(s, events[0]), events[1..])
  }

  // ---------------------------------------------------------------- invariant

  /** A stored booking as the pages write it: a one-way trip the form could
      produce and the browser let through; a selected car that was offered for
      it, stored with its total price text; details only after a car, and
      only ones that validate. */
  predicate GoodBooking(b: Booking) {
    && b.trip.Some? && Reachable(b.trip.value) && RequiredFilled(b.trip.value)
    && (b.selectedCar.Some? ==>
          b.selectedCar.value in OfferedCars(b.trip)
          && b.totalPrice == Some(TotalPriceText(b.selectedCar.value, false)))
    && (b.selectedCar.None? ==> b.totalPrice.None? && b.user.None?)
    && (b.user.Some? ==> Validate(b.user.value) == map[])
  }

  predicate Inv(s: Visit) {
    && PageOfRoute(s)
    && (s.session.Some? ==> GoodBooking(s.session.value))
    && match s.page
       case HomePage(t) => Reachable(t)
       case CarsPage(b, sel) =>
         s.session == Some(b) && (sel.Some? ==> sel.value in OfferedCars(b.trip))
       case InfoPage(_, _) => Open(s.session, InfoRoute)
       case PaymentPage(b, card) =>
         s.session == Some(b) && b.selectedCar.Some? && WellFormedCard(card)
  }

  lemma InitialVisitInv()
    ensures Inv(InitialVisit)
  {
    InitialTripReachable();
  }

  /** Entering any route keeps the invariant. */
  lemma EnterKeepsInv(session: Option<Booking>, route: Route)
    requires session.Some? ==> GoodBooking(session.value)
    ensures Inv(Enter(session, route))
  {
    InitialTripReachable();
    EmptyCardWellFormed();
  }

  /** Every event keeps the invariant. */
  lemma StepKeepsInv(s: Visit, e: Event)
    requires Inv(s)
    ensures Inv(Step(s, e))
  {
    match e
    case Go(to) => EnterKeepsInv(s.session, to);
    case TripInput(ce) =>
      if s.page.HomePage? && CanFire(s.page.trip, ce) {
        HandleChangeKeepsReachable(s.page.trip, ce);
      }
    case SubmitTrip =>
      if s.page.HomePage? && RequiredFilled(s.page.trip) {
        EnterKeepsInv(Some(Booking(Some(s.page.trip), None, None, None)), CarsRoute);
      }
    case PickOneWay(c) =>
    case PickReturn(c) =>
    case Continue => ContinueKeepsInv(s);
    case UserInput(f, v) =>
    case SubmitUser => SubmitUserKeepsInv(s);
    case CardInput(f, v) =>
      if s.page.PaymentPage? {
        HandleChangeKeepsWellFormed(s.page.card, f, v);
      }
    case PaySubmit => InitialVisitInv();
  }

  lemma ContinueKeepsInv(s: Visit)
    requires Inv(s)
    ensures Inv(ContinueStep(s))
  {
    if s.page.CarsPage? && s.page.selected.Some? {
      var b := s.page.booking;
      var c := s.page.selected.value;
      assert !IsRoundTrip(b);
      EnterKeepsInv(Some(b.(selectedCar := Some(c), totalPrice := Some(TotalPriceText(c, false)))), InfoRoute);
    }
  }

  lemma SubmitUserKeepsInv(s: Visit)
    requires Inv(s)
    ensures Inv(SubmitUserStep(s))
  {
    if s.page.InfoPage? && Validate(s.page.form) == map[] {
      var b := s.session.value;
      assert GoodBooking(b) && b.selectedCar.Some?;
      var stored := b.(user := Some(s.page.form));
      assert GoodBooking(stored);
      EnterKeepsInv(Some(stored), PaymentRoute);
      assert SubmitUserStep(s) == Enter(Some(stored), PaymentRoute);
    }
  }

  /** Every state a visit can reach keeps the invariant. */
  lemma {:induction false} RunKeepsInv(s: Visit, events: seq<Event>)
    requires Inv(s)
    ensures Inv(Run(s, events))
    decreases |events|
  {
    if events != [] {
      StepKeepsInv(s, events[0]);
      RunKeepsInv(Step(s, events[0]), events[1..]);
    }
  }

  // ---------------------------------------------------------------- consequences

  /** A stored car is a catalog car, stored with its one-way price text; its
      base fare and its one-way fare are whole numbers of pence. */
  lemma StoredCarPricedInPence(b: Booking)
    requires StoredWithCar(b)
    ensures b.totalPrice == Some(TotalPriceText(b.selectedCar.value, false))
    ensures IsHundredths(b.selectedCar.value.basePrice)
    ensures IsHundredths(ChargedTotal(b.selectedCar.value, false))
  {
    var c := b.selectedCar.value;
    assert c in Catalog;
    CatalogTotalsExact(c, false);
    CatalogBaseExact(c);
  }

  /** For a car priced in whole pence, the stored one-way price text reads
      back as its fare, and the distance charge computed from it is the
      mileage part of that fare. */
  lemma OneWayPriceFacts(c: Car, text: string)
    requires IsHundredths(c.basePrice) && IsHundredths(ChargedTotal(c, false))
    requires text == TotalPriceText(c, false)
    ensures ReadsBackOneWay(c, text)
  {
    var t := ChargedTotal(c, false);
    ReadBackExact(t);
    assert DistanceCharge(text, c) == Some(ToFixed2(t - c.basePrice));
    assert t - c.basePrice == EstimatedMiles * c.pricePerMile;
  }

  /** A booking priced one way: it holds a car that was offered for its trip,
      its total price text reads back as the one-way fare charged for that
      car, and the summary's distance charge is the mileage part of that
      fare. */
  predicate PricedOneWay(b: Booking) {
    && b.selectedCar.Some? && b.totalPrice.Some?
    && b.selectedCar.value in OfferedCars(b.trip)
    && ReadsBackOneWay(b.selectedCar.value, b.totalPrice.value)
  }

  /** A price text reads back as the one-way fare charged for car `c`, and
      the distance charge computed from it is the mileage part of that fare. */
  predicate ReadsBackOneWay(c: Car, text: string) {
    && ParseFixed2(text) == Some(ChargedTotal(c, false))
    && DistanceCharge(text, c) == Some(ToFixed2(EstimatedMiles * c.pricePerMile))
  }

  /** The parts of a stored booking with a car that its price depends on:
      a car offered for its trip, and that car's one-way price text. */
  predicate StoredWithCar(b: Booking) {
    && b.selectedCar.Some? && b.selectedCar.value in OfferedCars(b.trip)
    && b.totalPrice == Some(TotalPriceText(b.selectedCar.value, false))
  }

  /** The booking on the payment page of any visit is the stored one, and it
      holds a car. */
  lemma ReachedPaymentBooking(events: seq<Event>)
    requires Run(InitialVisit, events).page.PaymentPage?
    ensures Run(InitialVisit, events).session == Some(Run(InitialVisit, events).page.paying)
    ensures StoredWithCar(Run(InitialVisit, events).page.paying)
  {
    InitialVisitInv();
    RunKeepsInv(InitialVisit, events);
  }

  /** However a visit goes, whenever it is on the payment page its booking is
      priced one way. */
  lemma ReachedPaymentFacts(events: seq<Event>)
    requires Run(InitialVisit, events).page.PaymentPage?
    ensures PricedOneWay(Run(InitialVisit, events).page.paying)
  {
    ReachedPaymentBooking(events);
    StoredBookingPricedOneWay(Run(InitialVisit, events).page.paying);
  }

  /** Every stored booking with a car is priced one way. */
  lemma StoredBookingPricedOneWay(b: Booking)
    requires StoredWithCar(b)
    ensures PricedOneWay(b)
  {
    StoredCarPricedInPence(b);
    OneWayPriceFacts(b.selectedCar.value, b.totalPrice.value);
  }

  /** Because the round-trip toggle is not rendered, the booking continued
      from the car page is always priced one way. */
  lemma ContinuePricesOneWay(s: Visit)
    requires Inv(s) && s.page.CarsPage? && s.page.selected.Some?
    ensures ContinueStep(s).session.value.totalPrice == Some(TotalPriceText(s.page.selected.value, false))
  {
    assert !IsRoundTrip(s.page.booking);
  }

  /** After paying, the stored booking is gone, so each later step of the flow
      sends the visitor back to a home page. */
  lemma PaymentClearsSession(s: Visit, to: Route)
    requires s.page.PaymentPage? && CardFilled(s.page.card)
    ensures PayStep(s).session.None?
    ensures Step(PayStep(s), Go(to)).page.HomePage?
  {
  }
}

=== FILE: home.dfy ===
/** The trip form of the home page: the record it starts from, how an input
    change updates it, which inputs the rendered form has, and the browser's
    `required` check that gates its submission. */
module Home {
  import opened Optional
  import opened Decimal

  /** The trip record. The passenger and luggage counts are the option values
      of their `<select>`s, so they are kept as the text `parseInt` later
      reads. */
  datatype Trip = Trip(
    fromType: string,
    fromLocation: string,
    toType: string,
    toLocation: string,
    passengers: string,
    luggage: string,
    isRoundTrip: bool,
    pickupDate: string,
    pickupTime: string,
    returnDate: string,
    returnTime: string)

  /** The record the form starts from: airport to a custom address, one
      passenger with one bag, one way, every date and place still empty. */
  const InitialTrip: Trip :=
    Trip("airport", "", "custom", "", "1", "1", false, "", "", "", "")

  /** The text-valued fields; `isRoundTrip` is the only checkbox. */
  datatype TripField =
    | FromType | FromLocation | ToType | ToLocation | Passengers | Luggage
    | PickupDate | PickupTime | ReturnDate | ReturnTime

  function Get(t: Trip, f: TripField): string {
    match f
    case FromType => t.fromType
    case FromLocation => t.fromLocation
    case ToType => t.toType
    case ToLocation => t.toLocation
    case Passengers => t.passengers
    case Luggage => t.luggage
    case PickupDate => t.pickupDate
    case PickupTime => t.pickupTime
    case ReturnDate => t.returnDate
    case ReturnTime => t.returnTime
  }

  /** A change event: a text input or select reports its `value`, a checkbox
      its `checked` flag. */
  datatype ChangeEvent =
    | TextChange(field: TripField, value: string)
    | CheckboxChange(checked: bool)

  /** `handleChange`: the named field takes the event's value (`checked` for the
      checkbox); every other field keeps its value. */
  function HandleChange(t: Trip, e: ChangeEvent): (r: Trip)
    ensures e.TextChange? ==> Get(r, e.field) == e.value && r.isRoundTrip == t.isRoundTrip
    ensures e.TextChange? ==> forall g :: g != e.field ==> Get(r, g) == Get(t, g)
    ensures e.CheckboxChange? ==> r.isRoundTrip == e.checked && forall g :: Get(r, g) == Get(t, g)
  {
    match e
    case CheckboxChange(checked) => t.(isRoundTrip := checked)
    case TextChange(f, v) =>
      match f
      case FromType => t.(fromType := v)
      case FromLocation => t.(fromLocation := v)
      case ToType => t.(toType := v)
      case ToLocation => t.(toLocation := v)
      case Passengers => t.(passengers := v)
      case Luggage => t.(luggage := v)
      case PickupDate => t.(pickupDate := v)
      case PickupTime => t.(pickupTime := v)
      case ReturnDate => t.(returnDate := v)
      case ReturnTime => t.(returnTime := v)
  }

  /** Option values of the location-type selects. */
  const LocationTypes: seq<string> := ["airport", "custom"]

  /** Option values of the passenger select: the numerals 1 to 10. */
  const PassengerOptions: seq<string> := ["1", "2", "3", "4", "5", "6", "7", "8", "9", "10"]

  /** Option values of the luggage select: the numerals 0 to 10. */
  const LuggageOptions: seq<string> := ["0", "1", "2", "3", "4", "5", "6", "7", "8", "9", "10"]

  /** The events the rendered form can fire while showing `t`. The selects
      only report their own option values; the return date and time inputs
      exist only on a round trip; and no checkbox is rendered, because the
      round-trip toggle is commented out. */
  predicate CanFire(t: Trip, e: ChangeEvent) {
    if e.CheckboxChange? then false
    else if e.field == FromType || e.field == ToType then e.value in LocationTypes
    else if e.field == Passengers then e.value in PassengerOptions
    else if e.field == Luggage then e.value in LuggageOptions
    else if e.field == ReturnDate || e.field == ReturnTime then t.isRoundTrip
    else true
  }

  /** The browser's `required` check: every rendered required control holds a
      non-empty value. The return date and time count only on a round trip,
      the only time they are rendered. */
  predicate RequiredFilled(t: Trip) {
    && t.fromType != "" && t.fromLocation != "" && t.toType != "" && t.toLocation != ""
    && t.passengers != "" && t.luggage != "" && t.pickupDate != "" && t.pickupTime != ""
    && (t.isRoundTrip ==> t.returnDate != "" && t.returnTime != "")
  }

  /** What every record the form can reach satisfies: selects hold one of
      their options, and the trip is one way with no return date or time. */
  predicate Reachable(t: Trip) {
    && t.fromType in LocationTypes && t.toType in LocationTypes
    && t.passengers in PassengerOptions && t.luggage in LuggageOptions
    && !t.isRoundTrip && t.returnDate == "" && t.returnTime == ""
  }

  lemma InitialTripReachable()
    ensures Reachable(InitialTrip)
  {
  }

  /** No event the form can fire makes the trip a round trip or fills in a
      return date or time, and the selects stay within their options. */
  lemma HandleChangeKeepsReachable(t: Trip, e: ChangeEvent)
    requires Reachable(t) && CanFire(t, e)
    ensures Reachable(HandleChange(t, e))
  {
  }

  /** The return date and time take part in the required check exactly when
      the trip is a round trip. */
  lemma ReturnFieldsRequiredOnlyOnRoundTrip(t: Trip, date: string, time: string)
    ensures !t.isRoundTrip ==>
      (RequiredFilled(t.(returnDate := date, returnTime := time)) <==> RequiredFilled(t))
    ensures t.isRoundTrip && (t.returnDate == "" || t.returnTime == "") ==> !RequiredFilled(t)
  {
  }

  /** The option values are the numerals of their counts. */
  lemma OptionsAreNumerals()
    ensures forall i :: 0 <= i < |PassengerOptions| ==> PassengerOptions[i] == NatToString(i + 1)
    ensures forall i :: 0 <= i < |LuggageOptions| ==> LuggageOptions[i] == NatToString(i)
  {
    assert NatToString(10) == NatToString(1) + [DigitChar(0)];
  }

  /** The counts of a reachable record parse to 1..10 passengers and 0..10
      bags. */
  lemma ReachableCounts(t: Trip)
    requires Reachable(t)
    ensures ParseInt(t.passengers).Some? && 1 <= ParseInt(t.passengers).value <= 10
    ensures ParseInt(t.luggage).Some? && 0 <= ParseInt(t.luggage).value <= 10
  {
    OptionsAreNumerals();
    var i :| 0 <= i < 10 && PassengerOptions[i] == t.passengers;
    ParseIntOfNatToString(i + 1);
    var j :| 0 <= j < 11 && LuggageOptions[j] == t.luggage;
    ParseIntOfNatToString(j);
  }
}

=== FILE: money.dfy ===
/** Prices are exact reals. This module models the two JavaScript roundings the
    pages apply to them: `Math.round` for the promotional figures and
    `Number.prototype.toFixed(2)` for the charged total, plus `parseFloat`
    reading a `toFixed(2)` text back. */
module Money {
  import opened Optional
  import opened Text
  import opened Decimal

  /** `Math.round`: the nearest integer, a tie going up (towards +infinity). */
  function RoundHalfUp(x: real): (r: int)
    ensures r as real - 0.5 <= x < r as real + 0.5
  {
    (x + 0.5).Floor
  }

  /** A number that is a whole count of hundredths. */
  predicate IsHundredths(x: real) {
    (x * 100.0).Floor as real == x * 100.0
  }

  /** The whole number of hundredths `toFixed(2)` writes for a non-negative
      value: of the two nearest, the larger when they tie. */
  function Cents(y: real): (n: nat)
    requires y >= 0.0
    ensures n as real - 0.5 <= y * 100.0 < n as real + 0.5
  {
    RoundHalfUp(y * 100.0)
  }

  /** The value the text `toFixed(2)` writes stands for: `x` rounded to
      hundredths, a negative number by rounding its magnitude. */
  function Hundredths(x: real): (r: real)
    ensures IsHundredths(r)
    ensures x >= 0.0 ==> -0.005 < r - x <= 0.005 && r >= 0.0
    ensures x < 0.0 ==> -0.005 <= r - x < 0.005
  {
    if x < 0.0 then
      var n := Cents(-x);
      WholeHundredths(-(n as int));
      assert (-(n as int)) as real / 100.0 == -(n as real / 100.0);
      -(n as real / 100.0)
    else
      var n := Cents(x);
      WholeHundredths(n);
      n as real / 100.0
  }

  /** `k` hundredths is a whole number of hundredths. */
  lemma WholeHundredths(k: int)
    ensures IsHundredths(k as real / 100.0)
  {
    assert (k as real / 100.0) * 100.0 == k as real;
    assert (k as real).Floor == k;
  }

  /** The difference of two whole numbers of hundredths is one too. */
  lemma HundredthsOfDifference(x: real, y: real)
    requires IsHundredths(x) && IsHundredths(y)
    ensures IsHundredths(x - y)
  {
    var a := (x * 100.0).Floor;
    var b := (y * 100.0).Floor;
    assert (x - y) * 100.0 == (a - b) as real;
    assert ((a - b) as real).Floor == a - b;
  }

  /** Text for a non-negative value: integer part, point, two digits. */
  function UnsignedFixed2(y: real): (s: string)
    requires y >= 0.0
    ensures |s| >= 4 && s[|s| - 3] == '.'
    ensures AllDigits(s[..|s| - 3]) && AllDigits(s[|s| - 2..])
  {
    var n := Cents(y);
    NatToString(n / 100) + ['.', DigitChar(n % 100 / 10), DigitChar(n % 10)]
  }

  /** `x.toFixed(2)` for `|x| < 10^21`. */
  function ToFixed2(x: real): (r: string)
    ensures |r| >= 4 && r[|r| - 3] == '.'
    ensures x < 0.0 <==> r[0] == '-'
  {
    if x < 0.0 then "-" + UnsignedFixed2(-x) else UnsignedFixed2(x)
  }

  /** `parseFloat` on text of the shape `toFixed(2)` writes: an optional minus
      sign, digits, a point and two digits; `None` for any other text. */
  function ParseFixed2(s: string): (r: Option<real>)
    ensures r.Some? ==> |s| >= 4 && s[|s| - 3] == '.' && AllDigits(s[|s| - 2..])
    ensures r.Some? && s[0] != '-' ==> r.value >= 0.0
  {
    if s != [] && s[0] == '-' then
      match ParseUnsignedFixed2(s[1..])
      case Some(v) => Some(-v)
      case None => None
    else ParseUnsignedFixed2(s)
  }

  function ParseUnsignedFixed2(s: string): (r: Option<real>)
    ensures r.Some? ==> r.value >= 0.0 && IsHundredths(r.value)
  {
    if |s| >= 4 && s[|s| - 3] == '.' && AllDigits(s[..|s| - 3]) && AllDigits(s[|s| - 2..]) then
      var cents := DigitsValue(s[..|s| - 3]) * 100 + DigitsValue(s[|s| - 2..]);
      WholeHundredths(cents);
      Some(cents as real / 100.0)
    else None
  }

  /** Reading the `toFixed(2)` text of `x` back yields `x` rounded to
      hundredths: the text loses nothing beyond that rounding. */
  lemma ParseToFixed2(x: real)
    ensures ParseFixed2(ToFixed2(x)) == Some(Hundredths(x))
  {
    if x < 0.0 {
      var u := UnsignedFixed2(-x);
      var s := "-" + u;
      assert s[0] == '-' && s[1..] == u;
      ParseUnsignedToFixed2(-x);
      assert ParseFixed2(s) == Some(-(Cents(-x) as real / 100.0));
    } else {
      var s := UnsignedFixed2(x);
      assert s[0] == s[..|s| - 3][0];
      ParseUnsignedToFixed2(x);
      assert ParseFixed2(s) == Some(Cents(x) as real / 100.0);
    }
  }

  lemma ParseUnsignedToFixed2(y: real)
    requires y >= 0.0
    ensures ParseUnsignedFixed2(UnsignedFixed2(y)) == Some(Cents(y) as real / 100.0)
  {
    var n := Cents(y);
    var s := UnsignedFixed2(y);
    var d1, d0 := DigitChar(n % 100 / 10), DigitChar(n % 10);
    assert s[..|s| - 3] == NatToString(n / 100);
    assert s[|s| - 2..] == [d1, d0];
    DigitsValueOfNatToString(n / 100);
    assert [d1, d0][..1] == [d1];
    assert DigitsValue([d1]) == DigitValue(d1) by {
      assert [d1][..0] == [];
    }
    assert DigitsValue([d1, d0]) == DigitValue(d1) * 10 + DigitValue(d0);
    assert DigitsValue([d1, d0]) == n % 100;
    assert n == (n / 100) * 100 + n % 100;
    assert DigitsValue(s[..|s| - 3]) * 100 + DigitsValue(s[|s| - 2..]) == n;
  }

  /** The text of a whole number of hundredths reads back exactly. */
  lemma ReadBackExact(x: real)
    requires IsHundredths(x)
    ensures ParseFixed2(ToFixed2(x)) == Some(x)
  {
    ParseToFixed2(x);
    HundredthsExact(x);
  }

  /** Rounding to hundredths keeps a value that already is a whole number of
      hundredths. */
  lemma HundredthsExact(x: real)
    requires IsHundredths(x)
    ensures Hundredths(x) == x
  {
    var k := (x * 100.0).Floor;
    if x < 0.0 {
      assert (-x) * 100.0 + 0.5 == (-k) as real + 0.5;
      assert Cents(-x) == -k;
    } else {
      assert x * 100.0 + 0.5 == k as real + 0.5;
      assert Cents(x) == k;
    }
  }

  /** `Math.round` never reverses the order of two numbers. */
  lemma RoundHalfUpMonotone(x: real, y: real)
    ensures x <= y ==> RoundHalfUp(x) <= RoundHalfUp(y)
  {
  }

  /** Rounding to hundredths never reverses the order of two numbers. */
  lemma HundredthsMonotone(x: real, y: real)
    requires x <= y
    ensures Hundredths(x) <= Hundredths(y)
  {
    if 0.0 <= x {
      RoundHalfUpMonotone(x * 100.0, y * 100.0);
      assert Cents(x) <= Cents(y);
    } else if y < 0.0 {
      RoundHalfUpMonotone(-y * 100.0, -x * 100.0);
      assert Cents(-y) <= Cents(-x);
    }
  }
}

=== FILE: optional.dfy ===
/** Values the pages may or may not have: a stored booking, a selected car,
    the stored passenger details, a count `parseInt` could read. */
module Optional {

  datatype Option<T> = None | Some(value: T) {

    /** JavaScript's `x || fallback` on a value that may be missing: the
        value when present, `fallback` otherwise. */
    function Or(fallback: T): (r: T)
      ensures Some? ==> r == value
      ensures None? ==> r == fallback
    {
      if Some? then value else fallback
    }
  }
}

=== FILE: payment.dfy ===
/** The payment page: the card form with the formatters its change handler
    applies as the user types, the browser's `required` gate on submission,
    and the fare breakdown of the booking summary. */
module Payment {
  import opened Optional
  import opened Text
  import opened Money
  import opened Cars
  import opened CarSelection

  datatype CardData = CardData(cardNumber: string, cardName: string, expiry: string, cvv: string)

  /** The card form starts empty. */
  const EmptyCard: CardData := CardData("", "", "", "")

  datatype CardField = CardNumber | CardName | Expiry | Cvv

  function Get(card: CardData, f: CardField): string {
    match f
    case CardNumber => card.cardNumber
    case CardName => card.cardName
    case Expiry => card.expiry
    case Cvv => card.cvv
  }

  /** The longest text each formatted field keeps: sixteen digits in four
      groups, `MM/YY`, and four digits. */
  const CardNumberLength: nat := 19
  const ExpiryLength: nat := 5
  const CvvLength: nat := 4

  /** Every whitespace character of `s` is a plain space. */
  predicate SpacesOnly(s: string) {
    forall i :: 0 <= i < |s| && IsWhitespace(s[i]) ==> s[i] == ' '
  }

  // ---------------------------------------------------------------- card number

  /** `replace(/(\d{4})/g, '$1 ')`: a left-to-right scan that copies each run of
      four digits it meets followed by a space, and any other character as it
      is. The scan does not align to the start of the string: after a
      non-digit it starts a new group at the next four digits. */
  function GroupDigits(s: string): (r: string)
    ensures |s| <= |r|
    decreases |s|
  {
    if |s| >= 4 && AllDigits(s[..4]) then s[..4] + " " + GroupDigits(s[4..])
    else if s == [] then []
    else [s[0]] + GroupDigits(s[1..])
  }

  /** The scan only inserts plain spaces: removing whitespace undoes it. */
  lemma {:induction false} GroupDigitsInsertsSpaces(s: string)
    requires NoWhitespace(s)
    ensures RemoveWhitespace(GroupDigits(s)) == s
    ensures SpacesOnly(GroupDigits(s))
    decreases |s|
  {
    if |s| >= 4 && AllDigits(s[..4]) {
      GroupDigitsInsertsSpaces(s[4..]);
      SpaceAfterGroup(s[..4], GroupDigits(s[4..]), s[4..]);
      assert s == s[..4] + s[4..];
    } else if s != [] {
      GroupDigitsInsertsSpaces(s[1..]);
      CopiedChar(s[0], GroupDigits(s[1..]), s[1..]);
      assert s == [s[0]] + s[1..];
    }
  }

  /** A space put after a group is the only whitespace it adds. */
  lemma SpaceAfterGroup(g: string, r: string, t: string)
    requires NoWhitespace(g) && RemoveWhitespace(r) == t && SpacesOnly(r)
    ensures RemoveWhitespace(g + " " + r) == g + t
    ensures SpacesOnly(g + " " + r)
  {
    RemoveWhitespaceOfConcat(g + " ", r);
    RemoveWhitespaceOfConcat(g, " ");
    assert RemoveWhitespace(" ") == [];
    var x := g + " " + r;
    forall i | 0 <= i < |x| && IsWhitespace(x[i])
      ensures x[i] == ' '
    {
      if i > |g| {
        assert x[i] == r[i - |g| - 1];
      }
    }
  }

  /** A copied character that is not whitespace adds none. */
  lemma CopiedChar(ch: char, r: string, t: string)
    requires !IsWhitespace(ch) && RemoveWhitespace(r) == t && SpacesOnly(r)
    ensures RemoveWhitespace([ch] + r) == [ch] + t
    ensures SpacesOnly([ch] + r)
  {
    RemoveWhitespaceOfConcat([ch], r);
    var x := [ch] + r;
    forall i | 0 <= i < |x| && IsWhitespace(x[i])
      ensures x[i] == ' '
    {
      assert x[i] == r[i - 1];
    }
  }

  /** The card-number handler: whitespace removed, digits regrouped, the
      trailing space of a completed group trimmed, and the text cut to 19
      characters. */
  function FormatCardNumber(v: string): (r: string)
    ensures |r| <= CardNumberLength
  {
    Take(Trim(GroupDigits(RemoveWhitespace(v))), CardNumberLength)
  }

  /** Whatever is typed, the field keeps the typed non-whitespace characters
      in order, possibly cut short, and any whitespace in it is a plain
      space. */
  lemma FormatCardNumberKeepsText(v: string)
    ensures IsPrefix(RemoveWhitespace(FormatCardNumber(v)), RemoveWhitespace(v))
    ensures SpacesOnly(FormatCardNumber(v))
  {
    var e := RemoveWhitespace(v);
    var g := GroupDigits(e);
    GroupDigitsInsertsSpaces(e);
    TrimmedPrefixKeepsText(g, e);
    TrimmedPrefixSpacesOnly(g);
  }

  /** Trimming and cutting a text drops only its outer whitespace and its
      tail. */
  lemma TrimmedPrefixKeepsText(g: string, e: string)
    requires RemoveWhitespace(g) == e
    ensures IsPrefix(RemoveWhitespace(Take(Trim(g), CardNumberLength)), e)
  {
    var t := Trim(g);
    RemoveWhitespaceOfTrim(g);
    RemoveWhitespaceOfPrefix(t, |Take(t, CardNumberLength)|);
  }

  /** Trimming and cutting a text brings in no new whitespace. */
  lemma TrimmedPrefixSpacesOnly(g: string)
    requires SpacesOnly(g)
    ensures SpacesOnly(Take(Trim(g), CardNumberLength))
  {
    var u := TrimStart(g);
    SpacesOnlySlice(g, |g| - |u|, |g|);
    var t := TrimEnd(u);
    SpacesOnlySlice(u, 0, |t|);
    var r := Take(t, CardNumberLength);
    SpacesOnlySlice(t, 0, |r|);
  }

  /** A slice of a text whose whitespace is plain spaces has only plain
      spaces too. */
  lemma SpacesOnlySlice(g: string, lo: nat, hi: nat)
    requires SpacesOnly(g) && lo <= hi <= |g|
    ensures SpacesOnly(g[lo..hi])
  {
    var x := g[lo..hi];
    forall i | 0 <= i < |x| && IsWhitespace(x[i])
      ensures x[i] == ' '
    {
      assert x[i] == g[lo + i];
    }
  }

  /** Digits in groups of four separated by single spaces: the layout the
      field's placeholder `1234 5678 9012 3456` shows. */
  function Grouped(d: string): string
    decreases |d|
  {
    if |d| <= 4 then d else d[..4] + " " + Grouped(d[4..])
  }

  /** The layout adds one space between consecutive groups and starts and ends
      with the first and last digit. */
  lemma {:induction false} GroupedShape(d: string)
    ensures |Grouped(d)| == if d == [] then 0 else |d| + (|d| - 1) / 4
    ensures d != [] ==> Grouped(d)[0] == d[0] && Grouped(d)[|Grouped(d)| - 1] == d[|d| - 1]
    decreases |d|
  {
    if |d| > 4 {
      GroupedShape(d[4..]);
    }
  }

  /** Removing the spaces of the grouped layout gives the digits back. */
  lemma {:induction false} RemoveWhitespaceOfGrouped(d: string)
    requires AllDigits(d)
    ensures RemoveWhitespace(Grouped(d)) == d
    decreases |d|
  {
    if |d| > 4 {
      RemoveWhitespaceOfGrouped(d[4..]);
      RemoveWhitespaceOfConcat(d[..4] + " ", Grouped(d[4..]));
      RemoveWhitespaceOfConcat(d[..4], " ");
      assert RemoveWhitespace(" ") == [];
      assert d == d[..4] + d[4..];
    }
  }

  /** Fewer than four characters contain no group. */
  lemma {:induction false} GroupDigitsShort(s: string)
    requires |s| < 4
    ensures GroupDigits(s) == s
    decreases |s|
  {
    if s != [] {
      GroupDigitsShort(s[1..]);
      assert s == [s[0]] + s[1..];
    }
  }

  /** On digits the scan yields the grouped layout, followed by one space when
      the last group is complete. */
  lemma {:induction false} GroupDigitsOfDigits(d: string)
    requires AllDigits(d)
    ensures GroupDigits(d) == Grouped(d) + (if d != [] && |d| % 4 == 0 then " " else "")
    decreases |d|
  {
    if |d| < 4 {
      GroupDigitsShort(d);
    } else if |d| == 4 {
      assert d[4..] == [];
      assert d[..4] == d;
    } else {
      GroupDigitsOfDigits(d[4..]);
      var tail := if |d| % 4 == 0 then " " else "";
      assert |d[4..]| % 4 == |d| % 4;
      assert d[..4] + " " + (Grouped(d[4..]) + tail) == d[..4] + " " + Grouped(d[4..]) + tail;
    }
  }

  /** Cutting the grouped layout after `k` complete groups gives the layout of
      the first `4k` digits. */
  lemma {:induction false} GroupedPrefix(d: string, k: nat)
    requires 1 <= k && 4 * k <= |d|
    ensures |Grouped(d)| >= 5 * k - 1 && Grouped(d)[..5 * k - 1] == Grouped(d[..4 * k])
    decreases k
  {
    GroupedShape(d);
    if k == 1 {
      if |d| > 4 {
        assert Grouped(d)[..4] == d[..4];
      } else {
        assert d[..4] == d;
      }
      assert Grouped(d[..4]) == d[..4];
    } else {
      GroupedShape(d[4..]);
      GroupedPrefix(d[4..], k - 1);
      assert d[4..][..4 * (k - 1)] == d[..4 * k][4..];
      assert d[..4 * k][..4] == d[..4];
    }
  }

  /** A grouped layout of digits neither starts nor ends with whitespace, so a
      single trailing space is all that trimming removes. */
  lemma TrimGroupedSpace(d: string)
    requires AllDigits(d)
    ensures Trim(Grouped(d) + " ") == Grouped(d)
  {
    var g := Grouped(d);
    GroupedShape(d);
    if d == [] {
      assert g + " " == " ";
      assert TrimStart(" ") == [];
    } else {
      assert IsDigit(g[0]) && IsDigit(g[|g| - 1]);
      TrimSpaceAfter(g);
    }
  }

  /** One space after a text that neither starts nor ends with whitespace is
      all that trimming removes. */
  lemma TrimSpaceAfter(g: string)
    requires g != [] && !IsWhitespace(g[0]) && !IsWhitespace(g[|g| - 1])
    ensures Trim(g + " ") == g
  {
    var h := g + " ";
    assert h[0] == g[0];
    assert TrimStart(h) == h;
    assert h[|h| - 1] == ' ' && h[..|h| - 1] == g;
    assert TrimEnd(h) == TrimEnd(g);
    assert TrimEnd(g) == g;
  }

  /** Typing digits, with or without spaces, shows the first sixteen of them in
      groups of four. */
  lemma FormatCardNumberOfDigits(v: string)
    requires AllDigits(RemoveWhitespace(v))
    ensures FormatCardNumber(v) == Grouped(Take(RemoveWhitespace(v), 16))
  {
    var e := RemoveWhitespace(v);
    TrimGroupDigits(e);
    TakeGrouped(e);
  }

  /** Trimming the scan of digits leaves the grouped layout. */
  lemma TrimGroupDigits(e: string)
    requires AllDigits(e)
    ensures Trim(GroupDigits(e)) == Grouped(e)
  {
    GroupDigitsOfDigits(e);
    GroupedShape(e);
    if e != [] && |e| % 4 == 0 {
      TrimGroupedSpace(e);
    } else {
      if e != [] {
        assert IsDigit(e[0]) && IsDigit(e[|e| - 1]);
      }
      assert GroupDigits(e) == Grouped(e);
      TrimUnchanged(Grouped(e));
    }
  }

  /** Cutting the layout to 19 characters keeps the first four groups. */
  lemma TakeGrouped(e: string)
    ensures Take(Grouped(e), CardNumberLength) == Grouped(Take(e, 16))
  {
    GroupedShape(e);
    if |e| > 16 {
      GroupedPrefix(e, 4);
    } else {
      assert Take(e, 16) == e;
    }
  }

  /** Formatting an already formatted card number changes nothing. */
  lemma FormatCardNumberIdempotent(v: string)
    requires AllDigits(RemoveWhitespace(v))
    ensures FormatCardNumber(FormatCardNumber(v)) == FormatCardNumber(v)
  {
    var p := Take(RemoveWhitespace(v), 16);
    FormatCardNumberOfDigits(v);
    assert AllDigits(p);
    RemoveWhitespaceOfGrouped(p);
    FormatCardNumberOfDigits(Grouped(p));
    assert Take(p, 16) == p;
  }

  /** Without digit input re-formatting can change the field. Fourteen
      characters that are neither digits nor whitespace followed by five
      digits are cut right after the completed group, so the field keeps its
      trailing space; formatting that text again trims the space away. */
  lemma {:induction false} CutAfterGroupKeepsSpace(a: string, d: string)
    requires |a| == 14 && NoWhitespace(a) && forall i :: 0 <= i < |a| ==> !IsDigit(a[i])
    requires |d| == 5 && AllDigits(d)
    ensures FormatCardNumber(a + d) == a + d[..4] + " "
    ensures FormatCardNumber(a + d[..4] + " ") == a + d[..4]
    ensures FormatCardNumber(FormatCardNumber(a + d)) != FormatCardNumber(a + d)
  {
    FormatAfterLetters(a, d);
    FormatTrailingSpace(a, d[..4]);
  }

  lemma FormatAfterLetters(a: string, d: string)
    requires |a| == 14 && NoWhitespace(a) && forall i :: 0 <= i < |a| ==> !IsDigit(a[i])
    requires |d| == 5 && AllDigits(d)
    ensures FormatCardNumber(a + d) == a + d[..4] + " "
  {
    var v := a + d;
    NoWhitespaceOfConcat(a, d);
    GroupDigitsOfNoDigits(a, d);
    GroupDigitsOfFullGroup(d);
    var g := a + (d[..4] + " " + d[4..]);
    FormatOfGrouping(v, g);
    CutAfterSpace(a, d);
  }

  /** The trailing digit of `a + d` is cut off right after the space. */
  lemma CutAfterSpace(a: string, d: string)
    requires |a| == 14 && |d| == 5
    ensures Take(a + (d[..4] + " " + d[4..]), CardNumberLength) == a + d[..4] + " "
  {
    var g := a + (d[..4] + " " + d[4..]);
    assert g[..CardNumberLength] == a + d[..4] + " ";
  }

  /** The formatter on whitespace-free text whose grouping needs no trim. */
  lemma FormatOfGrouping(v: string, g: string)
    requires NoWhitespace(v) && GroupDigits(v) == g
    requires g != [] && !IsWhitespace(g[0]) && !IsWhitespace(g[|g| - 1])
    ensures FormatCardNumber(v) == Take(g, CardNumberLength)
  {
    TrimUnchanged(g);
  }

  /** Text without whitespace followed by digits has no whitespace. */
  lemma NoWhitespaceOfConcat(a: string, d: string)
    requires NoWhitespace(a) && AllDigits(d)
    ensures NoWhitespace(a + d)
  {
    var v := a + d;
    forall i | 0 <= i < |v| ensures !IsWhitespace(v[i]) {
      if i >= |a| { assert v[i] == d[i - |a|]; }
    }
  }

  lemma FormatTrailingSpace(a: string, d: string)
    requires |a| == 14 && NoWhitespace(a) && forall i :: 0 <= i < |a| ==> !IsDigit(a[i])
    requires |d| == 4 && AllDigits(d)
    ensures FormatCardNumber(a + d + " ") == a + d
  {
    var ad := a + d;
    NoWhitespaceOfConcat(a, d);
    var w := ad + " ";
    RemoveWhitespaceOfConcat(ad, " ");
    assert RemoveWhitespace(" ") == [];
    assert RemoveWhitespace(w) == ad;
    GroupDigitsOfNoDigits(a, d);
    GroupDigitsOfFullGroup(d);
    assert d[..4] == d && d[4..] == [];
    assert GroupDigits(ad) == w;
    TrimTrailingSpace(ad);
    assert Take(ad, CardNumberLength) == ad;
  }

  /** Four digits or more: the first four become a group with its space. */
  lemma GroupDigitsOfFullGroup(d: string)
    requires |d| >= 4 && AllDigits(d[..4])
    ensures GroupDigits(d) == d[..4] + " " + GroupDigits(d[4..])
    ensures |d| <= 5 ==> GroupDigits(d[4..]) == d[4..]
  {
    if |d| == 5 {
      var x := d[4..];
      assert !(|x| >= 4);
      assert x[1..] == [];
    }
  }

  /** Trimming a text that ends in one space after non-whitespace drops just
      that space. */
  lemma TrimTrailingSpace(u: string)
    requires u != [] && !IsWhitespace(u[0]) && !IsWhitespace(u[|u| - 1])
    ensures Trim(u + " ") == u
  {
    var w := u + " ";
    assert w[0] == u[0];
    assert TrimStart(w) == w;
    assert w[..|w| - 1] == u;
    assert TrimEnd(u) == u;
  }

  /** The scan passes over characters that are not digits one by one. */
  lemma {:induction false} GroupDigitsOfNoDigits(a: string, b: string)
    requires forall i :: 0 <= i < |a| ==> !IsDigit(a[i])
    ensures GroupDigits(a + b) == a + GroupDigits(b)
    decreases |a|
  {
    if a == [] {
      assert a + b == b;
    } else {
      var s := a + b;
      assert s[0] == a[0];
      assert |s| >= 4 ==> s[..4][0] == a[0];
      assert GroupDigits(s) == [s[0]] + GroupDigits(s[1..]);
      assert s[1..] == a[1..] + b;
      GroupDigitsOfNoDigits(a[1..], b);
      assert a == [a[0]] + a[1..];
    }
  }

  /** A run of fewer than four digits ended by a character that is not a
      digit forms no group: the scan passes over the run and that character
      unchanged. */
  lemma {:induction false} GroupDigitsOfShortRun(d: string, c: char, b: string)
    requires |d| < 4 && AllDigits(d) && !IsDigit(c)
    ensures GroupDigits(d + [c] + b) == d + [c] + GroupDigits(b)
    decreases |d|
  {
    var s := d + [c] + b;
    if d == [] {
      assert s == [c] + b;
      GroupDigitsOfNoDigits([c], b);
    } else {
      assert s[|d|] == c;
      assert |s| >= 4 ==> s[..4][|d|] == c;
      assert GroupDigits(s) == [s[0]] + GroupDigits(s[1..]);
      assert s[1..] == d[1..] + [c] + b;
      GroupDigitsOfShortRun(d[1..], c, b);
      assert d == [d[0]] + d[1..];
    }
  }

  /** A group of four in front of more digits is followed by a space. */
  lemma GroupedCons(a: string, b: string)
    requires |a| == 4 && b != []
    ensures Grouped(a + b) == a + " " + Grouped(b)
  {
    assert (a + b)[..4] == a && (a + b)[4..] == b;
  }

  /** Four groups of four laid out with spaces between them. */
  lemma GroupedFour(a: string, b: string, c: string, d: string)
    requires |a| == 4 && |b| == 4 && |c| == 4 && |d| == 4
    ensures Grouped(a + (b + (c + d))) == a + " " + (b + " " + (c + " " + d))
  {
    GroupedCons(c, d);
    assert Grouped(d) == d;
    GroupedCons(b, c + d);
    GroupedCons(a, b + (c + d));
  }

  /** Sixteen digits typed in one go show as four groups of four. */
  lemma SixteenDigitsShowFourGroups(a: string, b: string, c: string, d: string)
    requires |a| == 4 && |b| == 4 && |c| == 4 && |d| == 4
    requires AllDigits(a + (b + (c + d)))
    ensures FormatCardNumber(a + (b + (c + d))) == a + " " + (b + " " + (c + " " + d))
  {
    var v := a + (b + (c + d));
    assert NoWhitespace(v);
    assert RemoveWhitespace(v) == v;
    FormatCardNumberOfDigits(v);
    assert Take(v, 16) == v;
    GroupedFour(a, b, c, d);
  }

  // ---------------------------------------------------------------- expiry and CVV

  /** The expiry handler: the digits typed, with a slash after the first two
      once there are two, and at most two digits after the slash. */
  function FormatExpiry(v: string): (r: string)
    ensures |r| <= ExpiryLength
    ensures KeepDigits(r) == Take(KeepDigits(v), 4)
    ensures |KeepDigits(v)| >= 2 <==> |r| >= 3 && r[2] == '/'
    ensures |KeepDigits(v)| < 2 ==> r == KeepDigits(v)
    ensures forall i :: 0 <= i < |r| && i != 2 ==> IsDigit(r[i])
  {
    var d := KeepDigits(v);
    if |d| >= 2 then
      var y := if |d| <= 4 then d[2..] else d[2..4];
      KeepDigitsOfConcat(d[..2] + "/", y);
      KeepDigitsOfConcat(d[..2], "/");
      assert KeepDigits("/") == [];
      assert d[..2] + y == Take(d, 4);
      d[..2] + "/" + y
    else d
  }

  /** A character that is not a digit typed between two digits is dropped:
      the two digits show as `MM/`. */
  lemma ExpiryDropsNonDigit(a: char, x: char, b: char)
    requires IsDigit(a) && !IsDigit(x) && IsDigit(b)
    ensures FormatExpiry([a, x, b]) == [a, b, '/']
  {
    assert [a, x, b] == [a] + ([x] + [b]);
    KeepDigitsOfConcat([a], [x] + [b]);
    KeepDigitsOfConcat([x], [b]);
    KeepDigitsOfChar(a);
    KeepDigitsOfChar(x);
    KeepDigitsOfChar(b);
    assert KeepDigits([a, x, b]) == [a, b];
  }

  /** Once two digits are in, the slash follows them: erasing the slash of
      `MM/` gives back `MM`, which is formatted to `MM/` again. */
  lemma ExpirySlashAfterTwoDigits(a: char, b: char)
    requires IsDigit(a) && IsDigit(b)
    ensures FormatExpiry([a, b]) == [a, b, '/']
    ensures FormatExpiry([a, b, '/']) == [a, b, '/']
  {
    assert [a, b][..2] == [a, b];
    assert KeepDigits([a, b, '/']) == [a, b] by {
      assert [a, b, '/'] == [a, b] + ['/'];
      KeepDigitsOfConcat([a, b], ['/']);
    }
  }

  /** Formatting an already formatted expiry changes nothing. */
  lemma FormatExpiryIdempotent(v: string)
    ensures FormatExpiry(FormatExpiry(v)) == FormatExpiry(v)
  {
    var r := FormatExpiry(v);
    var d := Take(KeepDigits(v), 4);
    assert KeepDigits(r) == d;
    if |d| >= 2 {
      assert r[..2] == d[..2];
      assert r[3..] == d[2..];
      assert r == r[..2] + "/" + r[3..];
    } else {
      assert AllDigits(r);
    }
  }

  /** The CVV handler: the first four digits typed. */
  function FormatCvv(v: string): (r: string)
    ensures AllDigits(r)
    ensures |r| <= CvvLength
    ensures IsPrefix(r, KeepDigits(v))
    ensures |KeepDigits(v)| >= CvvLength ==> |r| == CvvLength
    ensures |KeepDigits(v)| < CvvLength ==> r == KeepDigits(v)
  {
    Take(KeepDigits(v), CvvLength)
  }

  /** Formatting an already formatted CVV changes nothing. */
  lemma FormatCvvIdempotent(v: string)
    ensures FormatCvv(FormatCvv(v)) == FormatCvv(v)
  {
  }

  // ---------------------------------------------------------------- the form

  /** What each field stores for a typed value: the card name is kept raw. */
  function Formatted(f: CardField, v: string): string {
    match f
    case CardNumber => FormatCardNumber(v)
    case CardName => v
    case Expiry => FormatExpiry(v)
    case Cvv => FormatCvv(v)
  }

  /** `handleChange`: the named field takes the formatted value and every other
      field keeps its own. */
  function HandleChange(card: CardData, f: CardField, v: string): (r: CardData)
    ensures Get(r, f) == Formatted(f, v)
    ensures forall g :: g != f ==> Get(r, g) == Get(card, g)
  {
    Set(card, f, Formatted(f, v))
  }

  /** The form with one field replaced. */
  function Set(card: CardData, f: CardField, x: string): (r: CardData)
    ensures Get(r, f) == x
    ensures forall g :: g != f ==> Get(r, g) == Get(card, g)
  {
    match f
    case CardNumber => card.(cardNumber := x)
    case CardName => card.(cardName := x)
    case Expiry => card.(expiry := x)
    case Cvv => card.(cvv := x)
  }

  /** What the formatters keep true of the form: bounded lengths, and a CVV of
      digits only. */
  predicate WellFormedCard(card: CardData) {
    && |card.cardNumber| <= CardNumberLength
    && |card.expiry| <= ExpiryLength
    && |card.cvv| <= CvvLength && AllDigits(card.cvv)
  }

  lemma EmptyCardWellFormed()
    ensures WellFormedCard(EmptyCard)
  {
  }

  lemma HandleChangeKeepsWellFormed(card: CardData, f: CardField, v: string)
    requires WellFormedCard(card)
    ensures WellFormedCard(HandleChange(card, f, v))
  {
  }

  /** The browser's `required` check on the card form: every field holds a
      non-empty value. */
  predicate CardFilled(card: CardData) {
    card.cardNumber != "" && card.cardName != "" && card.expiry != "" && card.cvv != ""
  }

  // ---------------------------------------------------------------- summary

  /** The "Distance Charge" line: the stored total read back with `parseFloat`,
      less the car's base fare, in two-decimal text. `None` stands for a stored
      total that is not two-decimal text. */
  function DistanceCharge(totalPrice: string, c: Car): (r: Option<string>)
    ensures r.Some? <==> ParseFixed2(totalPrice).Some?
  {
    match ParseFixed2(totalPrice)
    case None => None
    case Some(p) => Some(ToFixed2(p - c.basePrice))
  }

  /** For a catalog car the summary adds up: the distance charge read back plus
      the base fare is exactly the charged total. On a one-way trip the
      distance charge is the mileage part of the fare. */
  lemma DistanceChargeOfCatalogCar(c: Car, isRoundTrip: bool)
    requires c in Catalog
    ensures DistanceCharge(TotalPriceText(c, isRoundTrip), c).Some?
    ensures ParseFixed2(DistanceCharge(TotalPriceText(c, isRoundTrip), c).value)
      == Some(ChargedTotal(c, isRoundTrip) - c.basePrice)
    ensures !isRoundTrip ==>
      DistanceCharge(TotalPriceText(c, isRoundTrip), c) == Some(ToFixed2(EstimatedMiles * c.pricePerMile))
  {
    CatalogTotalsExact(c, isRoundTrip);
    CatalogBaseExact(c);
    DistanceChargeOfWholePence(c, isRoundTrip);
  }

  /** The same for any car whose base fare and total are whole pence. */
  lemma DistanceChargeOfWholePence(c: Car, isRoundTrip: bool)
    requires IsHundredths(c.basePrice) && IsHundredths(ChargedTotal(c, isRoundTrip))
    requires ParseFixed2(TotalPriceText(c, isRoundTrip)) == Some(ChargedTotal(c, isRoundTrip))
    ensures DistanceCharge(TotalPriceText(c, isRoundTrip), c).Some?
    ensures ParseFixed2(DistanceCharge(TotalPriceText(c, isRoundTrip), c).value)
      == Some(ChargedTotal(c, isRoundTrip) - c.basePrice)
    ensures !isRoundTrip ==>
      DistanceCharge(TotalPriceText(c, isRoundTrip), c) == Some(ToFixed2(EstimatedMiles * c.pricePerMile))
  {
    var t := ChargedTotal(c, isRoundTrip);
    assert DistanceCharge(TotalPriceText(c, isRoundTrip), c) == Some(ToFixed2(t - c.basePrice));
    HundredthsOfDifference(t, c.basePrice);
    ReadBackExact(t - c.basePrice);
    if !isRoundTrip {
      assert t - c.basePrice == EstimatedMiles * c.pricePerMile;
    }
  }

  /** Every catalog base fare is a whole number of pounds. */
  lemma CatalogBaseExact(c: Car)
    requires c in Catalog
    ensures IsHundredths(c.basePrice)
  {
    var k := c.basePrice.Floor * 100;
    WholeHundredths(k);
    assert k as real / 100.0 == c.basePrice;
  }
}

=== FILE: text.dfy ===
/** Character classes and whole-string transformations shared by the pages:
    JavaScript's `\s` class, `String.prototype.trim`, and the two
    `replace(/\s/g, '')` / `replace(/\D/g, '')` filters. */
module Text {

  /** ECMAScript WhiteSpace and LineTerminator code points. This one set is
      what the regular-expression class `\s`, `trim` and `parseInt` all skip. */
  predicate IsWhitespace(c: char) {
    var n := c as int;
    || n == 0x09 || n == 0x0A || n == 0x0B || n == 0x0C || n == 0x0D
    || n == 0x20 || n == 0xA0 || n == 0x1680
    || (0x2000 <= n <= 0x200A)
    || n == 0x2028 || n == 0x2029 || n == 0x202F || n == 0x205F
    || n == 0x3000 || n == 0xFEFF
  }

  /** The regular-expression class `\d`: ASCII decimal digits only. */
  predicate IsDigit(c: char) {
    '0' <= c <= '9'
  }

  predicate AllWhitespace(s: string) {
    forall i :: 0 <= i < |s| ==> IsWhitespace(s[i])
  }

  predicate NoWhitespace(s: string) {
    forall i :: 0 <= i < |s| ==> !IsWhitespace(s[i])
  }

  predicate AllDigits(s: string) {
    forall i :: 0 <= i < |s| ==> IsDigit(s[i])
  }

  /** Leading whitespace removed: what remains is a suffix of `s` that is empty
      or starts with a non-whitespace character, and what was dropped is all
      whitespace. */
  function TrimStart(s: string): (r: string)
    ensures |r| <= |s| && r == s[|s| - |r|..]
    ensures r == [] || !IsWhitespace(r[0])
    ensures AllWhitespace(s[..|s| - |r|])
    decreases |s|
  {
    if s != [] && IsWhitespace(s[0]) then
      var r := TrimStart(s[1..]);
      assert s[..|s| - |r|] == [s[0]] + s[1..][..|s| - 1 - |r|];
      r
    else s
  }

  /** Trailing whitespace removed, mirror image of `TrimStart`. */
  function TrimEnd(s: string): (r: string)
    ensures |r| <= |s| && r == s[..|r|]
    ensures r == [] || !IsWhitespace(r[|r| - 1])
    ensures AllWhitespace(s[|r|..])
    decreases |s|
  {
    if s != [] && IsWhitespace(s[|s| - 1]) then
      var r := TrimEnd(s[..|s| - 1]);
      assert s[|r|..] == s[..|s| - 1][|r|..] + [s[|s| - 1]];
      r
    else s
  }

  /** `String.prototype.trim`. */
  function Trim(s: string): (r: string)
    ensures |r| <= |s|
    ensures r == [] || (!IsWhitespace(r[0]) && !IsWhitespace(r[|r| - 1]))
  {
    TrimEnd(TrimStart(s))
  }

  /** Trimming cuts a piece out of the middle of `s` and drops only the
      whitespace on either side of it. */
  lemma TrimDropsEdgeWhitespace(s: string)
    ensures var r := Trim(s);
      exists i :: (0 <= i <= |s| - |r| && r == s[i..i + |r|]
                   && AllWhitespace(s[..i]) && AllWhitespace(s[i + |r|..]))
  {
    var u := TrimStart(s);
    var r := TrimEnd(u);
    var i := |s| - |u|;
    assert u == s[i..];
    assert s[i..i + |r|] == u[..|r|];
    assert s[i + |r|..] == u[|r|..];
    assert AllWhitespace(s[..i]) && AllWhitespace(s[i + |r|..]);
    assert r == Trim(s);
  }

  /** A string trims to nothing exactly when every character of it is whitespace:
      this is the "blank" test `!value.trim()` performs. */
  lemma TrimEmptyIffAllWhitespace(s: string)
    ensures Trim(s) == [] <==> AllWhitespace(s)
  {
  }

  /** Trimming leaves a string alone when it neither starts nor ends with
      whitespace. */
  lemma TrimUnchanged(s: string)
    requires s == [] || (!IsWhitespace(s[0]) && !IsWhitespace(s[|s| - 1]))
    ensures Trim(s) == s
  {
  }

  /** `replace(/\s/g, '')`: the non-whitespace characters, in order. */
  function RemoveWhitespace(s: string): (r: string)
    ensures NoWhitespace(r)
    ensures |r| <= |s|
    ensures NoWhitespace(s) ==> r == s
    decreases |s|
  {
    if s == [] then []
    else if IsWhitespace(s[0]) then RemoveWhitespace(s[1..])
    else [s[0]] + RemoveWhitespace(s[1..])
  }

  /** Removing whitespace distributes over concatenation. */
  lemma {:induction false} RemoveWhitespaceOfConcat(a: string, b: string)
    ensures RemoveWhitespace(a + b) == RemoveWhitespace(a) + RemoveWhitespace(b)
    decreases |a|
  {
    if a != [] {
      var ab := a + b;
      assert ab[0] == a[0] && ab[1..] == a[1..] + b;
      RemoveWhitespaceOfConcat(a[1..], b);
      if IsWhitespace(a[0]) {
        assert RemoveWhitespace(ab) == RemoveWhitespace(a[1..] + b);
        assert RemoveWhitespace(a) == RemoveWhitespace(a[1..]);
      } else {
        assert RemoveWhitespace(ab) == [a[0]] + RemoveWhitespace(a[1..] + b);
        assert RemoveWhitespace(a) == [a[0]] + RemoveWhitespace(a[1..]);
      }
    } else {
      assert a + b == b;
    }
  }

  /** A blank string has nothing left once its whitespace is removed. */
  lemma {:induction false} RemoveWhitespaceOfBlank(s: string)
    requires AllWhitespace(s)
    ensures RemoveWhitespace(s) == []
    decreases |s|
  {
    if s != [] {
      RemoveWhitespaceOfBlank(s[1..]);
    }
  }

  /** Trimming only drops whitespace, so the non-whitespace text survives it. */
  lemma RemoveWhitespaceOfTrim(s: string)
    ensures RemoveWhitespace(Trim(s)) == RemoveWhitespace(s)
  {
    RemoveWhitespaceOfTrimStart(s);
    RemoveWhitespaceOfTrimEnd(TrimStart(s));
  }

  lemma RemoveWhitespaceOfTrimStart(s: string)
    ensures RemoveWhitespace(TrimStart(s)) == RemoveWhitespace(s)
  {
    var t := TrimStart(s);
    var k := |s| - |t|;
    assert s == s[..k] + t;
    RemoveWhitespaceOfConcat(s[..k], t);
    RemoveWhitespaceOfBlank(s[..k]);
  }

  lemma RemoveWhitespaceOfTrimEnd(s: string)
    ensures RemoveWhitespace(TrimEnd(s)) == RemoveWhitespace(s)
  {
    var u := TrimEnd(s);
    assert s == u + s[|u|..];
    RemoveWhitespaceOfConcat(u, s[|u|..]);
    RemoveWhitespaceOfBlank(s[|u|..]);
  }

  /** The non-whitespace text of a prefix is a prefix of the non-whitespace
      text. */
  lemma RemoveWhitespaceOfPrefix(s: string, n: nat)
    requires n <= |s|
    ensures IsPrefix(RemoveWhitespace(s[..n]), RemoveWhitespace(s))
  {
    assert s == s[..n] + s[n..];
    RemoveWhitespaceOfConcat(s[..n], s[n..]);
  }

  predicate IsPrefix(p: string, s: string) {
    |p| <= |s| && p == s[..|p|]
  }

  /** `slice(0, n)`: the first `n` characters, or all of them when there are
      fewer. */
  function Take(s: string, n: nat): (r: string)
    ensures IsPrefix(r, s)
    ensures |r| == if |s| <= n then |s| else n
  {
    if |s| <= n then s else s[..n]
  }

  /** `replace(/\D/g, '')`: the digits, in order. */
  function KeepDigits(s: string): (r: string)
    ensures AllDigits(r)
    ensures |r| <= |s|
    ensures AllDigits(s) ==> r == s
    decreases |s|
  {
    if s == [] then []
    else if IsDigit(s[0]) then [s[0]] + KeepDigits(s[1..])
    else KeepDigits(s[1..])
  }

  /** One character is kept exactly when it is a digit. With
      `KeepDigitsOfConcat` this fixes the filter on every text: every digit
      is kept, in order, and every other character is dropped. */
  lemma KeepDigitsOfChar(c: char)
    ensures KeepDigits([c]) == (if IsDigit(c) then [c] else [])
  {
    assert [c][1..] == [];
  }

  /** Filtering distributes over concatenation. */
  lemma {:induction false} KeepDigitsOfConcat(a: string, b: string)
    ensures KeepDigits(a + b) == KeepDigits(a) + KeepDigits(b)
    decreases |a|
  {
    if a != [] {
      var ab := a + b;
      assert ab[0] == a[0] && ab[1..] == a[1..] + b;
      KeepDigitsOfConcat(a[1..], b);
      if IsDigit(a[0]) {
        assert KeepDigits(ab) == [a[0]] + KeepDigits(a[1..] + b);
        assert KeepDigits(a) == [a[0]] + KeepDigits(a[1..]);
      } else {
        assert KeepDigits(ab) == KeepDigits(a[1..] + b);
        assert KeepDigits(a) == KeepDigits(a[1..]);
      }
    } else {
      assert a + b == b;
    }
  }

  /** Number of occurrences of `c` in `s`. */
  function Count(s: string, c: char): (n: nat)
    ensures n <= |s|
    ensures n == 0 <==> c !in s
    decreases |s|
  {
    if s == [] then 0
    else (if s[0] == c then 1 else 0) + Count(s[1..], c)
  }

  lemma {:induction false} CountOfConcat(a: string, b: string, c: char)
    ensures Count(a + b, c) == Count(a, c) + Count(b, c)
    decreases |a|
  {
    if a != [] {
      var ab := a + b;
      assert ab[0] == a[0] && ab[1..] == a[1..] + b;
      CountOfConcat(a[1..], b, c);
    } else {
      assert a + b == b;
    }
  }
}

=== FILE: user_info.dfy ===
/** The passenger-information form: its fields, how an input change updates
    it, and the validation that decides whether the booking may move on to
    payment. */
module UserInfo {
  import opened Text

  datatype Field =
    | FirstName | LastName | Email | Telephone | Mobile | Emergency
    | Address1 | Address2 | City | Postcode | Country | State

  datatype UserForm = UserForm(
    firstName: string,
    lastName: string,
    email: string,
    telephone: string,
    mobile: string,
    emergency: string,
    address1: string,
    address2: string,
    city: string,
    postcode: string,
    country: string,
    state: string)

  /** Every field empty except the country, which defaults to the United
      Kingdom. */
  const InitialForm: UserForm :=
    UserForm("", "", "", "", "", "", "", "", "", "", "United Kingdom", "")

  function Get(form: UserForm, f: Field): string {
    match f
    case FirstName => form.firstName
    case LastName => form.lastName
    case Email => form.email
    case Telephone => form.telephone
    case Mobile => form.mobile
    case Emergency => form.emergency
    case Address1 => form.address1
    case Address2 => form.address2
    case City => form.city
    case Postcode => form.postcode
    case Country => form.country
    case State => form.state
  }

  /** `handleChange`: the named field takes the new value, every other field
      keeps its own. */
  function HandleChange(form: UserForm, f: Field, value: string): (r: UserForm)
    ensures Get(r, f) == value
    ensures forall g :: g != f ==> Get(r, g) == Get(form, g)
  {
    match f
    case FirstName => form.(firstName := value)
    case LastName => form.(lastName := value)
    case Email => form.(email := value)
    case Telephone => form.(telephone := value)
    case Mobile => form.(mobile := value)
    case Emergency => form.(emergency := value)
    case Address1 => form.(address1 := value)
    case Address2 => form.(address2 := value)
    case City => form.(city := value)
    case Postcode => form.(postcode := value)
    case Country => form.(country := value)
    case State => form.(state := value)
  }

  /** The keys of `requiredFields`, in their declared order. */
  const RequiredFields: seq<Field> := [FirstName, LastName, Email, Address1, City, Postcode]

  const RequiredMessage: string := "Required"
  const InvalidEmailMessage: string := "Enter a valid email"

  /** A character the email pattern's class `[^\s@]` admits. */
  predicate PlainChar(c: char) {
    !IsWhitespace(c) && c != '@'
  }

  predicate Plain(s: string) {
    forall k :: 0 <= k < |s| ==> PlainChar(s[k])
  }

  /** The regular expression `^[^\s@]+@[^\s@]+\.[^\s@]+$`, read off
      literally: three non-empty runs without whitespace or `@`, joined by an
      `@` and then a `.`. */
  ghost predicate MatchesEmailPattern(s: string) {
    exists i, j ::
      && 0 < i && i + 1 < j && j + 1 < |s|
      && s[i] == '@' && s[j] == '.'
      && Plain(s[..i]) && Plain(s[i + 1..j]) && Plain(s[j + 1..])
  }

  /** Position of the first `c` in `s`. */
  function IndexOf(s: string, c: char): (r: nat)
    requires c in s
    ensures r < |s| && s[r] == c && c !in s[..r]
    decreases |s|
  {
    if s[0] == c then 0
    else
      assert c in s[1..];
      var r := IndexOf(s[1..], c);
      assert s[..r + 1] == [s[0]] + s[1..][..r];
      r + 1
  }

  /** A domain with a `.` that is neither its first nor its last character. */
  predicate HasInnerDot(d: string) {
    |d| >= 3 && '.' in d[1..|d| - 1]
  }

  /** The email test as the page's code can run it: no whitespace, exactly one
      `@`, something before it, and a domain with an inner dot after it. */
  predicate ValidEmail(s: string) {
    && NoWhitespace(s)
    && Count(s, '@') == 1
    && 0 < IndexOf(s, '@')
    && HasInnerDot(s[IndexOf(s, '@') + 1..])
  }

  /** The executable test accepts exactly the strings the regular expression
      matches. */
  lemma ValidEmailMatchesPattern(s: string)
    ensures ValidEmail(s) <==> MatchesEmailPattern(s)
  {
    if MatchesEmailPattern(s) {
      var i, j :| && 0 < i && i + 1 < j && j + 1 < |s|
                  && s[i] == '@' && s[j] == '.'
                  && Plain(s[..i]) && Plain(s[i + 1..j]) && Plain(s[j + 1..]);
      PatternImpliesValid(s, i, j);
    }
    if ValidEmail(s) {
      ValidImpliesPattern(s);
    }
  }

  lemma PlainHasNoAt(s: string)
    requires Plain(s)
    ensures Count(s, '@') == 0
  {
  }

  lemma PatternImpliesValid(s: string, i: int, j: int)
    requires 0 < i && i + 1 < j && j + 1 < |s|
    requires s[i] == '@' && s[j] == '.'
    requires Plain(s[..i]) && Plain(s[i + 1..j]) && Plain(s[j + 1..])
    ensures ValidEmail(s)
  {
    var a, b, c := s[..i], s[i + 1..j], s[j + 1..];
    assert s == a + ['@'] + b + ['.'] + c;
    PatternNoWhitespace(s, i, j);
    PatternOneAt(a, b, c);
    var d := s[i + 1..];
    assert d[j - i - 1] == '.';
    assert d[1..|d| - 1][j - i - 2] == '.';
  }

  lemma PatternNoWhitespace(s: string, i: int, j: int)
    requires 0 < i && i + 1 < j && j + 1 < |s|
    requires s[i] == '@' && s[j] == '.'
    requires Plain(s[..i]) && Plain(s[i + 1..j]) && Plain(s[j + 1..])
    ensures NoWhitespace(s)
  {
    var a, b, c := s[..i], s[i + 1..j], s[j + 1..];
    forall k | 0 <= k < |s|
      ensures !IsWhitespace(s[k])
    {
      if k < i {
        assert s[k] == a[k];
      } else if i < k < j {
        assert s[k] == b[k - i - 1];
      } else if j < k {
        assert s[k] == c[k - j - 1];
      }
    }
  }

  lemma PatternOneAt(a: string, b: string, c: string)
    requires Plain(a) && Plain(b) && Plain(c)
    ensures Count(a + ['@'] + b + ['.'] + c, '@') == 1
  {
    PlainHasNoAt(a);
    PlainHasNoAt(b);
    PlainHasNoAt(c);
    CountOfConcat(a + ['@'] + b + ['.'], c, '@');
    CountOfConcat(a + ['@'] + b, ['.'], '@');
    CountOfConcat(a + ['@'], b, '@');
    CountOfConcat(a, ['@'], '@');
    assert Count(['@'], '@') == 1 by { assert ['@'][1..] == []; }
    assert Count(['.'], '@') == 0;
  }

  lemma ValidImpliesPattern(s: string)
    requires ValidEmail(s)
    ensures MatchesEmailPattern(s)
  {
    var i := IndexOf(s, '@');
    var d := s[i + 1..];
    NoSecondAt(s, i);
    var m :| 0 <= m < |d[1..|d| - 1]| && d[1..|d| - 1][m] == '.';
    var j := i + 2 + m;
    assert s[j] == d[m + 1];
    PlainPart(s, 0, i);
    PlainPart(s, i + 1, j);
    PlainPart(s, j + 1, |s|);
    assert s[..i] == s[0..i];
    assert s[j + 1..] == s[j + 1..|s|];
  }

  /** The first `@` of a string with one `@` is the only one. */
  lemma NoSecondAt(s: string, i: nat)
    requires '@' in s && i == IndexOf(s, '@') && Count(s, '@') == 1
    ensures forall k :: 0 <= k < |s| && k != i ==> s[k] != '@'
  {
    var d := s[i + 1..];
    assert s == s[..i + 1] + d;
    CountOfConcat(s[..i + 1], d, '@');
    assert s[..i + 1][i] == '@';
    assert Count(d, '@') == 0;
    forall k | 0 <= k < |s| && k != i
      ensures s[k] != '@'
    {
      if k < i {
        assert s[k] == s[..i][k];
      } else {
        assert s[k] == d[k - i - 1];
      }
    }
  }

  /** A stretch of a string without whitespace that holds no `@` is plain. */
  lemma PlainPart(s: string, lo: int, hi: int)
    requires 0 <= lo <= hi <= |s|
    requires NoWhitespace(s)
    requires forall k :: lo <= k < hi ==> s[k] != '@'
    ensures Plain(s[lo..hi])
  {
    forall k | 0 <= k < hi - lo
      ensures PlainChar(s[lo..hi][k])
    {
      assert s[lo..hi][k] == s[lo + k];
    }
  }

  /** `validate`: "Required" on each required field that is blank after
      trimming; then, for a non-empty email the pattern rejects, "Enter a
      valid email" instead. */
  function Validate(form: UserForm): (r: map<Field, string>)
    ensures forall f :: f in r ==> f in RequiredFields
    ensures forall f :: f in RequiredFields && f != Email ==>
      (f in r <==> AllWhitespace(Get(form, f)))
    ensures forall f :: f in r && f != Email ==> r[f] == RequiredMessage
    ensures Email in r <==> !ValidEmail(form.email)
    ensures Email in r ==> r[Email] == if form.email == "" then RequiredMessage else InvalidEmailMessage
  {
    ValidEmailNotBlank(form.email);
    var blank := BlankErrors(form, RequiredFields);
    if form.email != "" && !ValidEmail(form.email) then blank[Email := InvalidEmailMessage] else blank
  }

  /** The `forEach` over the required fields: "Required" for each of `fields`
      whose value trims to nothing. */
  function BlankErrors(form: UserForm, fields: seq<Field>): (r: map<Field, string>)
    ensures forall f :: f in r <==> f in fields && AllWhitespace(Get(form, f))
    ensures forall f :: f in r ==> r[f] == RequiredMessage
    decreases |fields|
  {
    if fields == [] then map[]
    else
      var rest := BlankErrors(form, fields[1..]);
      TrimEmptyIffAllWhitespace(Get(form, fields[0]));
      if Trim(Get(form, fields[0])) == "" then rest[fields[0] := RequiredMessage] else rest
  }

  /** A blank string is never a valid email. */
  lemma ValidEmailNotBlank(s: string)
    ensures AllWhitespace(s) ==> !ValidEmail(s)
  {
  }

  /** The form passes exactly when every required field other than the email
      has a non-blank value and the email matches the pattern. */
  lemma ValidateEmptyIff(form: UserForm)
    ensures Validate(form) == map[] <==>
      (forall f :: f in RequiredFields && f != Email ==> !AllWhitespace(Get(form, f)))
      && MatchesEmailPattern(form.email)
  {
    ValidEmailMatchesPattern(form.email);
    var r := Validate(form);
    if r != map[] {
      var f :| f in r;
      assert f in RequiredFields;
    }
  }

  /** A form complete except for an empty city gets exactly one error, on
      the city. */
  lemma BlankCityOnly(form: UserForm)
    requires !AllWhitespace(form.firstName) && !AllWhitespace(form.lastName)
    requires !AllWhitespace(form.address1) && !AllWhitespace(form.postcode)
    requires ValidEmail(form.email)
    requires form.city == ""
    ensures Validate(form) == map[City := RequiredMessage]
  {
    var r := Validate(form);
    assert Get(form, City) == "";
    assert City in r;
    assert FirstName !in r;
    assert LastName !in r;
    assert Email !in r;
    assert Address1 !in r;
    assert Postcode !in r;
    OnlyCity(r);
  }

  /** A map of required fields that holds the city and none of the other
      required fields is the single error on the city. */
  lemma OnlyCity(r: map<Field, string>)
    requires forall f :: f in r ==> f in RequiredFields
    requires FirstName !in r && LastName !in r && Email !in r && Address1 !in r && Postcode !in r
    requires City in r && r[City] == RequiredMessage
    ensures r == map[City := RequiredMessage]
  {
    assert r.Keys == {City};
  }
}
